=== FILE: README.md ===
# meTasking terminal UI core in Dafny

This project models the view logic of the meTasking command-line client's
terminal UI and states what it promises. It covers:

- the week calendar, where each day is a column of 96 quarter-hour cells;
- the per-log activity bar;
- the work-log card;
- the paginated log list and its scroll trigger;
- the editable text field;
- the monthly report tab;
- the `report` command;
- the web launcher's command line.

Everything is modelled as pure functions over immutable data. The few
algorithms with loops are methods with invariants. Python behaviour the
code relies on is written out explicitly:

- `int()` truncation;
- `% 1` as a floor remainder;
- negative list indices wrapping around;
- `IndexError`;
- `ZeroDivisionError`;
- `ValueError` from `date(y, 13, 1)`;
- `min()` of an empty collection.

Time-stamps are real numbers of seconds since midnight of day ordinal 0.
Day `d` runs from `d * 86400` to `time.max`, which is one microsecond
before the next midnight.

Modules, one per source file or concept:

| file | module | models |
|---|---|---|
| wrappers.dfy | Wrappers | `Option`, `Result` |
| py_num.dfy | PyNum | Python's `int()`, `math.ceil` and `% 1` on floats |
| dates.dfy | Dates | the parts of Python's `date`/`timedelta` the UI uses |
| logs.dfy | Logs | logs and records as the API hands them over, and the list endpoint's paging |
| cell_ranges.dfy | CellRanges | `_merge_ranges` and `WLCalCS` in `calendar.py` |
| calendar.dfy | Calendar | `WorkLogCalendarDay.render`, `_refresh_data` and `WorkLogCalendar` |
| range_bar.dfy | RangeBar | `BarCS` and `RangeBar.__rich_console__` |
| work_log.dfy | WorkLog | the `WorkLog` card |
| auto_load.dfy | AutoLoad | `AutoLoadScrollableContainer.watch_scroll_y` |
| log_list.dfy | LogList | `LogList` in `work_log_list.py` |
| editable.dfy | Editable | `EditableText` |
| report_view.dfy | ReportView | `WorkLogReport` and `WorkLogReportDay` in `tui/report.py` |
| report_command.dfy | ReportCommand | `commands/report.py` |
| serve.dfy | Serve | `serve.py` |

Some behaviour raises, as the code is written, and is modelled as a
`Failure`:

- In December, the report tab's `month_end`, its "next" button and the
  total row's query window all raise, because they build
  `date(y, 13, 1)`. January's "previous" button raises the same way.
- The activity bar raises `IndexError` when a range's scaled end has a
  fractional part of at least one half and falls in the last cell.
- The activity bar raises "Unhandled bar state" for an empty bar one
  cell wide.
- The `report` command raises on `min()` when there is no closed record.

## Model

Source paths are relative to the repository root.

| member | source | states |
|---|---|---|
| CellRanges.Insert | metaskingcli/commands/tui/calendar.py:49 | Inserting into a sorted sequence keeps it sorted by start. The result is the input plus exactly the new range, as a multiset. |
| CellRanges.SortByStart | metaskingcli/commands/tui/calendar.py:49 | `sorted(ranges, key=start)` returns ranges sorted by start. They are a permutation of the input. |
| CellRanges.SortCovers | metaskingcli/commands/tui/calendar.py:49 | Sorting keeps every point covered or uncovered as before. |
| CellRanges.SortSorted | metaskingcli/commands/tui/calendar.py:49 | Sorting ranges that are already sorted by start changes nothing. |
| CellRanges.Grow | metaskingcli/commands/tui/calendar.py:57-65 | The inner loop keeps the accumulated start and never shrinks the end. Every absorbed range ends inside the grown range. The first range not absorbed starts strictly after it. |
| CellRanges.Sweep | metaskingcli/commands/tui/calendar.py:51-69 | The outer loop returns no more ranges than it was given, and none only for no input. The result is sorted, strictly separated, and starts at the first input start. |
| CellRanges.MergeRanges | metaskingcli/commands/tui/calendar.py:41-69 | `_merge_ranges` is empty exactly for empty input. It never returns more ranges than it was given, and they are sorted and pairwise separated. |
| CellRanges.AbsorbCovers | metaskingcli/commands/tui/calendar.py:59-63 | Absorbing a range that starts inside the accumulator covers exactly the points of the two ranges. |
| CellRanges.GrowCovers | metaskingcli/commands/tui/calendar.py:57-65 | After the inner loop, the grown range plus the unabsorbed rest cover exactly the points of the accumulator and all of the rest. |
| CellRanges.SweepCovers | metaskingcli/commands/tui/calendar.py:51-69 | The sweep covers exactly the points its sorted input covers. |
| CellRanges.MergeCovers | metaskingcli/commands/tui/calendar.py:41-69 | A point lies in some merged range if and only if it lies in some input range. |
| CellRanges.SweepSeparated | metaskingcli/commands/tui/calendar.py:51-69 | On sorted, separated input the sweep is the identity. |
| CellRanges.MergeIdempotent | metaskingcli/commands/tui/calendar.py:41-69 | Merging merged ranges again changes nothing. |
| CellRanges.GrowColor | metaskingcli/commands/tui/calendar.py:60-62 | A merged range keeps its colour exactly when every range it absorbed has that colour. Otherwise it takes the fallback grey. |
| CellRanges.RangePosition | metaskingcli/commands/tui/calendar.py:97-134 | The edge position of each state is a fraction of the cell. `END_k` is at k/8, `START_k` at (8-k)/8. |
| CellRanges.PickEnd | metaskingcli/commands/tui/calendar.py:154-169 | The `END_7`..`END_1` cascade picks the highest k whose snapped edge the end reaches. The end lies within half an eighth of that edge. The result is `EMPTY` exactly when the end is below 1/16. |
| CellRanges.PickStart | metaskingcli/commands/tui/calendar.py:171-186 | The `START_7`..`START_1` cascade picks the highest k whose snapped edge lies beyond the start, within half an eighth. The result is `EMPTY` exactly when the start is at or past 15/16. |
| CellRanges.ClassifyOne | metaskingcli/commands/tui/calendar.py:148-194 | A single range is `FULL` exactly when it snaps to both edges. Snapped to the top only, it is `END_k` or `EMPTY`. Snapped to the bottom only, it is `START_k` or `EMPTY`. Snapped to neither, it is `MIDDLE` exactly when it straddles the middle within the tolerance, and `FUZZY` otherwise. |
| CellRanges.Classify | metaskingcli/commands/tui/calendar.py:136-194 | `from_ranges` merges first. No ranges give `EMPTY` and several merged ranges give `FUZZY`, both in the fallback colour. A single merged range is classified and keeps its colour. |
| CellRanges.AsText | metaskingcli/commands/tui/calendar.py:196-233 | Each state is drawn in the given colour. |
| CellRanges.AsTextInjective | metaskingcli/commands/tui/calendar.py:196-233 | No two states share a glyph-and-reverse pair. |
| CellRanges.ClassifyNone | metaskingcli/commands/tui/calendar.py:142-143 | An empty cell is `EMPTY` in the fallback colour. |
| CellRanges.ClassifyWhole | metaskingcli/commands/tui/calendar.py:151-152 | A whole cell is `FULL` in its own colour. |
| CellRanges.ClassifyHalves | metaskingcli/commands/tui/calendar.py:154-186 | The top half is `END_4` and the bottom half is `START_4`. |
| CellRanges.ClassifyTouching | metaskingcli/commands/tui/calendar.py:140-152 | Two touching ranges that together fill the cell merge and are `FULL`. |
| CellRanges.ClassifyApart | metaskingcli/commands/tui/calendar.py:140-146 | Two disjoint ranges are `FUZZY` in the fallback colour. |
| PyNum.Ceil | metaskingcli/commands/tui/calendar.py:303 | `math.ceil` is the least integer not below its argument. |
| Calendar.Clamp | metaskingcli/commands/tui/calendar.py:300-301 | `min(max(x, 0), h)` lies in [0, h] and is `x` when `x` already does. |
| Calendar.HourMarkerRows | metaskingcli/commands/tui/calendar.py:32-34 | The keys of `FULL_HOUR_MARKERS` are exactly the rows 0, 4, …, 92. |
| Calendar.PiecesAt | metaskingcli/commands/tui/calendar.py:316-335 | A range leaves at most one piece in a row. When both ends are fractional and share a row, the only piece is the one between them, in that row. Otherwise a fractional start leaves a piece from the start to the bottom of row `int(start)`. A fractional end leaves a piece from the top of row `int(end)` to the end. A full piece lies exactly in the rows from `ceil(start)` to below `int(end)`, and every other row gets nothing. |
| Calendar.FillFull | metaskingcli/commands/tui/calendar.py:334-335 | The full-row loop appends `(0, 1, color)` to exactly the rows in `[lo, hi)`. |
| Calendar.AddPieces | metaskingcli/commands/tui/calendar.py:316-335 | One range's appends, done in the source's order, leave every row with exactly its pieces appended. No write falls outside the 96 rows. |
| Calendar.PiecesInsideGrid | metaskingcli/commands/tui/calendar.py:300-335 | A clamped range leaves nothing outside the grid. |
| Calendar.FindFree | metaskingcli/commands/tui/calendar.py:306-314 | The label search finds the first free row at or after the start row. It finds none exactly when all those rows are taken. |
| Calendar.PlaceLabel | metaskingcli/commands/tui/calendar.py:306-314 | A label goes into the first free row at or after its start row. It is marked moved exactly when that row is later than the start row. Existing labels are never overwritten. The label is dropped only when no free row remains. |
| Calendar.LabelCount | metaskingcli/commands/tui/calendar.py:291-294 | The number of labelled rows never exceeds the number of rows. |
| Calendar.EmptyGrid | metaskingcli/commands/tui/calendar.py:287-294 | The grid starts with 96 rows, each without pieces and without a label. |
| Calendar.RangeColor | metaskingcli/commands/tui/calendar.py:297-298 | A range's colour is one of the six palette entries. |
| Calendar.ScaledStart | metaskingcli/commands/tui/calendar.py:300 | The scaled start lies within the 96 rows. |
| Calendar.ScaledEnd | metaskingcli/commands/tui/calendar.py:301 | The scaled end lies within the 96 rows. |
| Calendar.LabelRow | metaskingcli/commands/tui/calendar.py:303-306 | The label search starts at a row in [0, 96]. |
| Calendar.BuildRows | metaskingcli/commands/tui/calendar.py:296-335 | Processing all ranges keeps exactly 96 rows. |
| Calendar.BuildLabels | metaskingcli/commands/tui/calendar.py:296-314 | Processing all ranges keeps exactly 96 label slots. |
| Calendar.BuildGrid | metaskingcli/commands/tui/calendar.py:287-335 | The grid of a day is well formed. |
| Calendar.BuildGridRows | metaskingcli/commands/tui/calendar.py:296-335 | Row `i` holds exactly the pieces each range leaves in it, range by range. |
| Calendar.LabelsKept | metaskingcli/commands/tui/calendar.py:308-312 | Once placed, a label stays in its row for the rest of the loop. |
| Calendar.LabelCountBound | metaskingcli/commands/tui/calendar.py:296-314 | There are never more labels than ranges. |
| Calendar.PlaceLabelCount | metaskingcli/commands/tui/calendar.py:306-314 | Placing one label adds at most one labelled row. |
| Calendar.SingleRangeGrid | metaskingcli/commands/tui/calendar.py:296-335 | One range on row boundaries `a < b` fills rows `a..b-1` with one full piece each and leaves all other rows empty. Its label sits unmoved at row `a` and no other row is labelled. |
| Calendar.SecondLabelMoves | metaskingcli/commands/tui/calendar.py:306-314 | Of two ranges starting on the same row, the first label stays there unmoved. The second moves to the next row and is flagged `^`. |
| Calendar.Repeat | metaskingcli/commands/tui/calendar.py:359 | `ch * n` is `n` copies of `ch`, and empty for a negative `n`. |
| Calendar.PyPrefix | metaskingcli/commands/tui/calendar.py:357 | `s[:k]` is a prefix of `s`, of length `min(k, len(s))` for `k >= 0`. |
| Calendar.LabelBody | metaskingcli/commands/tui/calendar.py:357-362 | A label's text is `width - 2` characters: the name cut to `width - 3` characters, then spaces. |
| Calendar.RuleBody | metaskingcli/commands/tui/calendar.py:363-372 | An unlabelled row is `width - 1` rule characters on an hour-marker row, and `width - 1` spaces otherwise. |
| Calendar.ComposeLine | metaskingcli/commands/tui/calendar.py:339-372 | A row starts with its cell's glyph. Its text is on the cell colour exactly when the cell is `FULL`. A labelled row shows `^` or `=` on the label's colour, then the label text. An unlabelled row shows the rule. For width ≥ 3 the row is exactly `width` characters. |
| Calendar.Render | metaskingcli/commands/tui/calendar.py:282-374 | Rendering yields 96 lines. A line has a `^`/`=` prefix exactly when a label was placed on its row. For width ≥ 3 every line is exactly `width` characters. |
| Calendar.RenderRow | metaskingcli/commands/tui/calendar.py:339-348 | Line `i` shows the cell state of the pieces all ranges leave in row `i`, in that row's colour. Its text is on the cell colour exactly when that cell is `FULL`. |
| Calendar.ClipRecord | metaskingcli/commands/tui/calendar.py:397-420 | A record is skipped exactly when it starts after the day or ends before it. Otherwise it is clipped to the day and both ends become fractions in [0, 1). An end inside the day maps back to its own time, and an end outside the day maps to the day's bound. |
| Calendar.RangeName | metaskingcli/commands/tui/calendar.py:415-419 | A range's name is the log's name, then `: `, then the description, with a missing description read as empty. |
| Calendar.LogRanges | metaskingcli/commands/tui/calendar.py:397-420 | A log contributes at most one range per record. Each range is named `name: description` and lies within the day. |
| Calendar.LogRangesClipped | metaskingcli/commands/tui/calendar.py:397-420 | A log's ranges are exactly the records that `ClipRecord` does not skip, in record order, each with its clipped ends and the log's range name. |
| Calendar.DayRanges | metaskingcli/commands/tui/calendar.py:386-424 | Every range of the day lies in [0, 1). |
| Calendar.DayRangesConcat | metaskingcli/commands/tui/calendar.py:391-424 | The ranges of two runs of logs are the ranges of the first run followed by those of the second. |
| Calendar.DayRangesSingle | metaskingcli/commands/tui/calendar.py:397-420 | A single log contributes exactly its own ranges. With `DayRangesConcat`, the day's ranges are each log's ranges concatenated in arrival order. |
| Calendar.DayRangesGrow | metaskingcli/commands/tui/calendar.py:421-424 | The ranges published after each log form a prefix of the final ranges, so during one refresh the column only grows. |
| Calendar.WeekStart | metaskingcli/commands/tui/calendar.py:72-73 | `_get_week_start` is a Monday, at most six days before the given day. |
| Calendar.WeekStartIdempotent | metaskingcli/commands/tui/calendar.py:72-73 | A Monday is its own week start. |
| Calendar.WeekDays | metaskingcli/commands/tui/calendar.py:536-540 | The seven columns are the week start plus 0 to 6 days. They are Monday to Sunday when the start is a Monday. |
| Calendar.WeekStartValid | metaskingcli/commands/tui/calendar.py:72-73 | The week start of a `date` is itself a `date`, with an ordinal of at least 1. |
| Calendar.FirstWeek | metaskingcli/commands/tui/calendar.py:545-547 | Among the first seven day ordinals, only ordinal 1 (0001-01-01) is a Monday. |
| Calendar.Mount | metaskingcli/commands/tui/calendar.py:493-495 | The initial view shows the week containing today, starting on a Monday that is a `date`. |
| Calendar.Press | metaskingcli/commands/tui/calendar.py:520-549 | "previous" raises `OverflowError` exactly from the week of 0001-01-01. Otherwise "previous" and "next" move every column by exactly seven days and keep a Monday start. The new start always differs from the old, so the watcher refreshes the columns. |
| RangeBar.Merge | metaskingcli/commands/tui/range_bar.py:13-33 | `BarCS.merge` is the least upper bound in the order `EMPTY < LEFT, RIGHT < FULL`. |
| RangeBar.LeqPartialOrder | metaskingcli/commands/tui/range_bar.py:13-33 | The order under `merge` is reflexive, antisymmetric and transitive. |
| RangeBar.MergeLaws | metaskingcli/commands/tui/range_bar.py:13-33 | `merge` is commutative, associative and idempotent. `EMPTY` is its identity and `FULL` absorbs. `LEFT` merged with `RIGHT` is `FULL`. |
| PyNum.Trunc | metaskingcli/commands/tui/range_bar.py:66 | `int()` is the floor for non-negative values and rounds towards zero for negative ones, landing in [x, x + 1). |
| PyNum.TruncOdd | metaskingcli/commands/tui/range_bar.py:66 | `int(-x)` is `-int(x)`, so truncation is symmetric about zero. |
| PyNum.Mod1 | metaskingcli/commands/tui/range_bar.py:63-64 | `x % 1` lies in [0, 1), and `x` minus it is a whole number. The calendar uses the same remainder at `calendar.py` lines 318-321. |
| PyNum.Mod1Unique | metaskingcli/commands/tui/range_bar.py:63-64 | Any split of `x` into a whole number and a fraction in [0, 1) has `x % 1` as its fraction and `floor(x)` as its whole number. |
| RangeBar.PyIndex | metaskingcli/commands/tui/range_bar.py:68-75 | A list index is valid exactly in [-n, n). A negative index counts from the end. |
| RangeBar.ScaledStart | metaskingcli/commands/tui/range_bar.py:57-60 | The scaled start is never negative. |
| RangeBar.ScaledEnd | metaskingcli/commands/tui/range_bar.py:58-61 | The scaled end never exceeds the width. |
| RangeBar.MergeAt | metaskingcli/commands/tui/range_bar.py:68-75 | A merge write raises `IndexError` exactly for an out-of-range index. Otherwise it joins the state into exactly the indexed cell. |
| RangeBar.FillFull | metaskingcli/commands/tui/range_bar.py:77-78 | The fill loop makes exactly the cells in `[lo, hi)` full. |
| RangeBar.ApplyRange | metaskingcli/commands/tui/range_bar.py:54-78 | One range raises exactly when a half-cell `LEFT` or `RIGHT` write lands outside the bar. Otherwise the bar keeps its width. |
| RangeBar.ApplyRangeCells | metaskingcli/commands/tui/range_bar.py:54-78 | After one range, each cell is its old state joined with that range's contribution, so cells only grow. |
| RangeBar.Accumulate | metaskingcli/commands/tui/range_bar.py:50-78 | A successful accumulation has one state per cell. |
| RangeBar.AccumulateCells | metaskingcli/commands/tui/range_bar.py:50-78 | A cell's final state is the join of every range's contribution, so no range's coverage is ever lost. |
| RangeBar.ScaledUnit | metaskingcli/commands/tui/range_bar.py:57-61 | The ends of a range within [0, 1] are not clamped: they scale to `start * width` and `end * width`. |
| RangeBar.ScaledUnitInBar | metaskingcli/commands/tui/range_bar.py:57-61 | For a range within [0, 1], both scaled ends lie inside the bar. |
| RangeBar.InBarIndexError | metaskingcli/commands/tui/range_bar.py:63-75 | When the scaled start is at most the width and the scaled end is not negative, the only write that can fail is the `RIGHT` write past an end. It fails exactly when the end's fraction is at least one half and `int(end) + 1` equals the width. |
| RangeBar.UnitRangeIndexError | metaskingcli/commands/tui/range_bar.py:57-75 | A range within [0, 1] raises exactly when its scaled end has a fractional part of at least one half and lies in the last cell, so that `int(end) + 1` equals the width. |
| RangeBar.EmptyGlyph | metaskingcli/commands/tui/range_bar.py:102-132 | An empty cell is the full background bar `━` exactly when neither neighbour reaches into it. A neighbour reaches in when the previous cell is `LEFT`/`FULL` or the next is `RIGHT`/`FULL`. The cell is `╺` exactly when only the previous reaches in, `╸` exactly when only the next does, and a blank exactly when both do. |
| RangeBar.CellGlyph | metaskingcli/commands/tui/range_bar.py:102-140 | A non-empty cell is `╺`, `╸` or `━` in the highlight style. An empty cell with a neighbour is a background bar, a half bar pointing away from a neighbour that reaches it, or a space when both do. An empty cell without neighbours raises. |
| RangeBar.Glyphs | metaskingcli/commands/tui/range_bar.py:80-140 | The glyph loop yields each cell's glyph in order. It raises exactly when some cell's glyph raises. |
| RangeBar.RenderBar | metaskingcli/commands/tui/range_bar.py:43-140 | The bar yields exactly one glyph per cell. It never raises at width ≥ 2 once the ranges are accumulated. At width 1 it raises exactly when the cell is empty. Each glyph is the one the match table picks from its accumulated cell and that cell's neighbours. |
| WorkLog.Summarize | metaskingcli/commands/tui/work_log.py:168-211 | With no records the card shows "No records" and `--:--:--`. Otherwise it raises `ZeroDivisionError` exactly when the span is zero. There is one range per record. The card is active exactly when the last record is running. The start shows the first record. The end shows the last record's end, or the start date and `--:--:--` while running. |
| WorkLog.RangesInverse | metaskingcli/commands/tui/work_log.py:194-211 | Each range maps back to its own record. The start scales to the record's start. A closed end scales to the record's end. A running record carries the raw duration. |
| WorkLog.RangeEndpoints | metaskingcli/commands/tui/work_log.py:194-206 | The first start maps to 0. A closed last end maps to 1. |
| WorkLog.ClosedRangesUnit | metaskingcli/commands/tui/work_log.py:194-206 | For records in time order, every closed record's range lies in [0, 1] with its start before its end. |
| WorkLog.SummaryActive | metaskingcli/commands/tui/work_log.py:183-192 | The card's active flag says whether the log's last record is running. |
| WorkLog.DateText | metaskingcli/commands/tui/work_log.py:288-291 | The date line is the start date alone exactly when the start and end dates are equal. Otherwise it is `start - end`. |
| WorkLog.TimeText | metaskingcli/commands/tui/work_log.py:293 | The time line is the start time, then exactly ` - `, then the end time. |
| WorkLog.ActivityRange | metaskingcli/commands/tui/work_log.py:196-206 | The scaled start maps back to the record's start. A closed record's scaled end maps back to its end. A running record carries the span itself as its second value. |
| WorkLog.Buttons | metaskingcli/commands/tui/work_log.py:303-336 | A read-only card has no buttons. Otherwise Stop comes first exactly when the log is not stopped. Pause shows exactly when active and Resume exactly when not. Delete is always last and no button repeats. |
| AutoLoad.WatchScrollY | metaskingcli/commands/tui/scrollable_auto_load.py:20-26 | The callback is scheduled exactly when one is set and the move crosses the line five rows above the bottom downwards. The handler always ends by delegating to the base class. |
| AutoLoad.NoScheduleMovingUp | metaskingcli/commands/tui/scrollable_auto_load.py:21-24 | Scrolling up or staying put never schedules a load. |
| AutoLoad.NoSchedulePastEdge | metaskingcli/commands/tui/scrollable_auto_load.py:21-24 | A move that starts past the edge never schedules a load. |
| AutoLoad.CrossingOncePerApproach | metaskingcli/commands/tui/scrollable_auto_load.py:21-22 | Of two consecutive moves, at most one crosses the edge. |
| Logs.ListPage | metaskingcli/api/log.py:11-27 | A page holds at most `limit` logs. It is empty exactly past the end or for limit 0. It is the server's logs from `offset` on, in order. It comes back short only when it reaches the end. |
| LogList.Shown | metaskingcli/commands/tui/work_log_list.py:86-92 | The cards are the page's logs in order. Running logs are dropped exactly when `only_active` is `False`. |
| LogList.ShownConcat | metaskingcli/commands/tui/work_log_list.py:86-92 | Filtering two pages together is filtering each in turn. |
| LogList.InitialInv | metaskingcli/commands/tui/work_log_list.py:56-61 | The reset list satisfies the invariant: the offset counts the accepted logs, the cards are the shown logs, and the empty marker is set exactly when there is no card. |
| LogList.Launch | metaskingcli/commands/tui/work_log_list.py:99-105 | A load does nothing once the end is reached. Otherwise it fetches at the current offset. |
| LogList.Complete | metaskingcli/commands/tui/work_log_list.py:107-123 | In only-active mode the page is the running log, if any, and the end is reached. Otherwise the page is the listed logs, and the end is reached exactly when fewer than 20 came back. |
| LogList.Deliver | metaskingcli/commands/tui/work_log_list.py:63-97 | A result for another offset is ignored and changes nothing. An accepted page advances the offset by its length, appends its logs and their shown cards, and clears the empty marker when a card was added. |
| LogList.Reload | metaskingcli/commands/tui/work_log_list.py:56-61 | A reload resets to offset 0 with no card and launches a fetch of the first page. |
| LogList.Scroll | metaskingcli/commands/tui/work_log_list.py:129-134 | Scrolling past the edge launches a fetch at the current offset exactly when the end is not reached. |
| LogList.DeliverInv | metaskingcli/commands/tui/work_log_list.py:63-97 | Delivering any result, accepted or stale, keeps the invariant. |
| LogList.StaleResultDropped | metaskingcli/commands/tui/work_log_list.py:69-71 | A result launched at offset 40 and delivered after a reload is discarded. |
| LogList.FirstPageAcceptedAfterReload | metaskingcli/commands/tui/work_log_list.py:69-74 | A first-page result fetched before a reload is accepted after it, because staleness is judged by offset alone. |
| LogList.ServerPage | metaskingcli/commands/tui/work_log_list.py:114-119 | `list_all` with limit 20 returns at most 20 logs, all within the server's listing. |
| LogList.HonestPageLoaded | metaskingcli/commands/tui/work_log_list.py:63-123 | Against an unchanging server, one launch-and-deliver keeps the loaded logs a prefix of the listing. It advances by exactly one page and reaches the end only at the end. |
| LogList.LoadAll | metaskingcli/commands/tui/work_log_list.py:63-134 | Repeated loading from the first page fetches the whole listing, in order, and shows exactly its shown cards. |
| Editable.New | metaskingcli/commands/tui/editable.py:33-35 | A new field holds its text with the cursor after it, without focus. |
| Editable.ResolveText | metaskingcli/commands/tui/editable.py:37-43 | A set text shows as itself. An unset text shows nothing when focused and the fallback otherwise. |
| Editable.AddCursor | metaskingcli/commands/tui/editable.py:45-48 | With focus, a `\|` is inserted at the cursor and nothing else changes. Without focus the text is unchanged. |
| Editable.Display | metaskingcli/commands/tui/editable.py:50-51 | The shown text is the resolved text, with `\|` at the cursor when focused. Removing the `\|` gives back the text. |
| Editable.Home | metaskingcli/commands/tui/editable.py:73-74 | Home moves the cursor to 0 and keeps the text. |
| Editable.End | metaskingcli/commands/tui/editable.py:76-79 | End moves the cursor after the text. It does nothing while the text is unset. |
| Editable.Backspace | metaskingcli/commands/tui/editable.py:81-90 | Backspace removes the character before the cursor and moves the cursor back one. It does nothing at 0 or while unset. |
| Editable.Delete | metaskingcli/commands/tui/editable.py:92-100 | Delete removes the character at the cursor and keeps the cursor. It does nothing at the end or while unset. |
| Editable.Left | metaskingcli/commands/tui/editable.py:102-106 | Left moves back one, stopping at 0. |
| Editable.Right | metaskingcli/commands/tui/editable.py:108-115 | Right moves forward one, stopping at the end. It does nothing while unset. |
| Editable.CtrlLeft | metaskingcli/commands/tui/editable.py:117-134 | Ctrl-left from after a space moves back one. From inside a word it moves to the start of the word: position 0 or just after a space, with no space skipped. |
| Editable.CtrlRight | metaskingcli/commands/tui/editable.py:136-153 | Ctrl-right from a space moves forward one. From inside a word it moves to the next space or the end, with no space skipped. |
| Editable.Insert | metaskingcli/commands/tui/editable.py:159-165 | Typing inserts the character at the cursor, with an unset text counting as empty, and advances the cursor. |
| Editable.OnKey | metaskingcli/commands/tui/editable.py:155-165 | A key without a printable character changes nothing. A printable one is inserted. |
| Editable.InsertBackspace | metaskingcli/commands/tui/editable.py:81-90 | Backspace undoes typing. |
| Editable.InsertLeftDelete | metaskingcli/commands/tui/editable.py:92-106 | Typing, then Left, then Delete gives back the original text and cursor. |
| Editable.Enter | metaskingcli/commands/tui/editable.py:65-68 | Enter passes the current text, possibly unset, to the save callback when there is one, and drops focus. |
| Editable.Escape | metaskingcli/commands/tui/editable.py:70-71 | Escape drops focus and keeps the text and cursor. |
| Dates.ToOrdinal | metaskingcli/commands/tui/report.py:216-227 | The day number behind `datetime.combine(day, time.min)` and `time.max` is at least 1, and it is 1 exactly for 1 January of year 1, as in `date.toordinal()`. |
| Dates.Weekday | metaskingcli/commands/tui/calendar.py:73 | `weekday()` lies in 0..6. |
| Dates.FirstDayMonday | metaskingcli/commands/tui/calendar.py:73 | 1 January of year 1 is a Monday, weekday 0. |
| Dates.WeekdayStep | metaskingcli/commands/tui/calendar.py:73 | Each next day has the next weekday, wrapping from Sunday (6) to Monday (0). The weekday repeats every seven days. |
| Dates.NextDay | metaskingcli/commands/tui/report.py:321 | The next day is a valid date. It starts a month exactly when the day before ended one. |
| Dates.PrevDay | metaskingcli/commands/tui/report.py:292-298 | `- timedelta(days=1)` gives a valid date whose next day is the original. |
| Dates.AddDays | metaskingcli/commands/tui/report.py:321 | Adding days gives a valid date. |
| Dates.AddDaysOrdinal | metaskingcli/commands/tui/report.py:321 | Adding `n` days moves the day ordinal by exactly `n`. |
| Dates.AddDaysWithinMonth | metaskingcli/commands/tui/report.py:321-327 | Within the month, adding days adds to the day of the month. |
| Dates.AddDaysPastMonth | metaskingcli/commands/tui/report.py:321-324 | Adding enough days to pass the month's last day leaves the month. |
| Dates.AddDaysSplit | metaskingcli/commands/tui/report.py:321 | Adding `a + b` days is adding `a` and then `b`. |
| ReportView.FirstOfMonth | metaskingcli/commands/tui/report.py:339-349 | `date(y, m, 1)` raises `ValueError` exactly for a month outside 1..12. Otherwise it is the valid first of that month. |
| ReportView.MonthStart | metaskingcli/commands/tui/report.py:20-21 | `_get_month_start` is the valid first of the date's month. |
| ReportView.MonthStartOf | metaskingcli/commands/tui/report.py:20-21 | A date is its month start plus `day - 1` days. The month start of a month start is itself. |
| ReportView.MonthEnd | metaskingcli/commands/tui/report.py:292-298 | `month_end` raises exactly in December. Otherwise it is the month's last day. |
| ReportView.MonthEndNext | metaskingcli/commands/tui/report.py:292-298 | The day after `month_end` is the first of the next month. |
| ReportView.DaySlot | metaskingcli/commands/tui/report.py:321-327 | Row `i` is shown exactly when the month start plus `i` days is still in the month. It then shows that day. |
| ReportView.UpdateContent | metaskingcli/commands/tui/report.py:307-332 | The re-layout raises exactly in December, through the heading's `month_end`. Otherwise there are 31 day rows and the total row shows the month start. |
| ReportView.SlotsOfMonth | metaskingcli/commands/tui/report.py:316-327 | Row `i` is shown exactly for `i` below the month's length, with day `i + 1`. |
| ReportView.Press | metaskingcli/commands/tui/report.py:334-349 | "previous" raises exactly in January and "next" exactly in December. Otherwise the view moves to the first of the neighbouring month of the same year. |
| ReportView.PressRoundTrip | metaskingcli/commands/tui/report.py:334-349 | "next" then "previous", or "previous" then "next", returns to the month start. |
| ReportView.WatchMonthStart | metaskingcli/commands/tui/report.py:300-305 | Equal values do nothing. A change raises exactly when it is December. Otherwise it re-lays all 31 day rows, each showing the new month start plus its index, and moves the total row to the new month. |
| ReportView.ProgressTargets | metaskingcli/commands/tui/report.py:147-155 | With no hours loaded there are no targets. A day row targets 8 of 24 hours. The total row targets 160 of 672 hours. |
| ReportView.WatchDay | metaskingcli/commands/tui/report.py:89-96 | Equal values do nothing. A change drops the loaded hours and asks for a reload. |
| ReportView.QueryWindow | metaskingcli/commands/tui/report.py:211-227 | Without a day there is no query. A day row queries from the day's `time.min` to its `time.max`. The total row queries the whole month and raises exactly in December. |
| ReportView.MonthWindowLength | metaskingcli/commands/tui/report.py:216-224 | The total row's window is the month's length in days, minus one microsecond. |
| ReportView.FetchTotal | metaskingcli/commands/tui/report.py:181-204 | `_fetch_total` yields the running total after each record, then the final total once more. When no record ends before it starts, the yielded totals never decrease. |
| ReportCommand.FetchAll | metaskingcli/commands/report.py:14-26 | Paging starts at offset 0. Each request is at the previous offset plus the previous page's length. It stops at the first empty page, having collected every log in order. |
| ReportCommand.StartDay | metaskingcli/commands/report.py:35 | `start.date()` is the day whose span contains the time-stamp. |
| ReportCommand.NoDayNoHours | metaskingcli/commands/report.py:37-42 | A day on which no closed record started has no hours. |
| ReportCommand.Bucket | metaskingcli/commands/report.py:28-42 | The `dates` dictionary has a key exactly for each start day of a closed record. Its value is that day's hours. `total_duration` is the hours of all closed records, and running records are skipped. |
| ReportCommand.MinDay | metaskingcli/commands/report.py:44 | `min(dates.keys())` is missing exactly when no record is closed. Otherwise it is the earliest start day of a closed record. |
| ReportCommand.MaxDay | metaskingcli/commands/report.py:45 | `max(dates.keys())` is missing exactly when no record is closed. Otherwise it is the latest start day of a closed record. |
| ReportCommand.Lines | metaskingcli/commands/report.py:46-52 | One line for each day from `lo` to `hi`, showing the day's entry or 0.0. |
| ReportCommand.HoursBetweenExtend | metaskingcli/commands/report.py:37-42 | Widening a day range by one day adds that day's hours. |
| ReportCommand.HoursBetweenAll | metaskingcli/commands/report.py:37-42 | A day range containing every closed record's start day holds all the hours. |
| ReportCommand.SumLines | metaskingcli/commands/report.py:46-52 | Lines giving each consecutive day its hours add up to the hours of those days. |
| ReportCommand.LookupHours | metaskingcli/commands/report.py:48-51 | Looking a day up in `dates`, with 0.0 for a missing day, gives the day's hours. |
| ReportCommand.LinesTotal | metaskingcli/commands/report.py:44-54 | The printed lines give each day its hours and add up to the printed total. |
| ReportCommand.DaysOrdered | metaskingcli/commands/report.py:44-47 | The first day is not after the last. |
| ReportCommand.Tabulate | metaskingcli/commands/report.py:28-56 | The command raises exactly when no record is closed. Otherwise it returns 0. It prints consecutive days from the first to the last start day of a closed record, each with its hours, and both of those days have records. The total is the sum of the lines and the hours of all closed records. |
| ReportCommand.Execute | metaskingcli/commands/report.py:7-56 | Over all pages, the command raises exactly when no record is closed. Otherwise it returns 0. It prints consecutive days from the first to the last start day of a closed record, each with its hours and 0.0 for a day without records. The total equals the sum of the lines and the hours of all closed records. |
| Serve.EscapeQuotes | serve.py:11 | Each quote grows into five characters. |
| Serve.EscapeArgument | serve.py:10-12 | An escaped argument is wrapped in single quotes and grows by 2 plus 4 per quote. |
| Serve.EscapeAll | serve.py:23 | Every argument is escaped, in order. |
| Serve.CommandLine | serve.py:22-27 | The served command starts with `python -m metaskingcli tui `. |
| Serve.WindowTitle | serve.py:18-20 | The title is "Metasking TUI" exactly when none is configured. Otherwise ` - ` and the configured title are appended. |
| Serve.EscapeArgumentRoundTrip | serve.py:10-12 | A shell reads any escaped argument back as exactly that one word. An empty argument becomes `''`. |
| Serve.ScanEscaped | serve.py:11 | Inside single quotes, the escaped text reads back as the original text. |
| Serve.ScanJoined | serve.py:22-23 | The space-joined escaped arguments read back as exactly the arguments. |
| Serve.CommandLineRoundTrip | serve.py:22-27 | The shell splits the served command into `python`, `-m`, `metaskingcli`, `tui` and then exactly the launcher's own arguments, whatever they contain. |

## Left out

- HTTP calls, Textual widgets, mounting, CSS, threads and `@work(exclusive=True)` cancellation are left out. The API is a sequence of logs given as a parameter. A fetch is split into a launch event and a delivery event.
- `datetime.now()` is a `now` parameter. `strftime` is a parameter of `WorkLog.Summarize` and is left out elsewhere, including the calendar day header, the calendar and report headings and the report's ISO dates. `hash(name)` is a parameter of the calendar.
- Floating point is modelled as exact `real` arithmetic. Rounding in `/ DAY_SECONDS`, `* height` and `% 1` is not modelled.
- `Dates` models the proleptic Gregorian calendar for years ≥ 1. The `OverflowError` past year 9999 is not modelled.
- Calendar.Press: the `OverflowError` that "next" raises from the last week of year 9999 is not modelled. Neither is the one that `week_end` and the column dates raise for that week. Only the `OverflowError` before 0001-01-01 is modelled.
- The calendar (`calendar.py` lines 391-396) and the report rows (`tui/report.py` lines 188-193) call `list_all(..., page_limit=20)` as a paging iterator, the calendar with `async for`. `metaskingcli/api/log.py` lines 11-42 does not have that signature: its `list_all` is synchronous, takes `offset`/`limit` and returns one list. Called against it, both sites would raise `TypeError`. The model assumes the iterator these callers expect, which yields every log of the query once and in order, and represents it as the plain sequence of those logs. The `since`/`until` filtering is the server's business and is not modelled.
- The server side of `list_all` and `get_active` is not part of this model. `Logs.ListPage` states the paging an honest server provides.
- `LogList.Deliver` mounts cards without building them. The `ZeroDivisionError` a card raises for a log whose span is zero (`WorkLog.Summarize`) is not carried into the list.
- `WorkLog.on_button_pressed` and the field save callbacks call the API and are left out. `Editable.Enter` returns the text passed to the callback.
- `WorkLogCalendarHours` and `split_hours` only format text and are left out.
- `Serve.Scan` reads only the subset of POSIX shell syntax the launcher produces. It reads quoting, backslash escapes and blanks. It gives up (`None`) on expansions, operators, patterns and comments. The environment variables of `serve.py` are parameters.
- CellRanges.MergeRanges: the result's independence from the order of the input is not claimed. Only coverage, sortedness, separation and idempotence are stated.
- Calendar.Render: the date header line above the 96 rows is left out, because it is a `strftime` of the day.
- ReportView.WatchDay: `watch_day` does not re-render in the model, because rendering is formatting only.
- `watch_total` (`tui/report.py` lines 80-87) is not modelled. `total` is a plain class attribute (line 57), not a `reactive`, so Textual never calls this watcher.

=== FILE: auto_load.dfy ===
/** The scroll-edge trigger shared by `AutoLoadScrollableContainer` and
    `LogList`: a load is wanted when the scroll position moves from at or
    above a point five rows before the bottom to below it. */
module AutoLoad {

  /** The scroll position five rows before the bottom. */
  function Edge(maxScroll: real): real {
    maxScroll - 5.0
  }

  /** The condition of `watch_scroll_y`: the move crosses the edge downwards. */
  predicate EdgeCrossed(before: real, after: real, maxScroll: real) {
    before <= Edge(maxScroll) && after > Edge(maxScroll)
  }

  /** What the handler does, in order. */
  datatype Effect = ScheduleCallback | DelegateToSuper

  /** `AutoLoadScrollableContainer.watch_scroll_y`. */
  function WatchScrollY(hasCallback: bool, before: real, after: real, maxScroll: real): (effs: seq<Effect>)
    ensures |effs| > 0 && effs[|effs| - 1] == DelegateToSuper
    ensures ScheduleCallback in effs <==> hasCallback && before <= maxScroll - 5.0 < after
    ensures forall i :: 0 <= i < |effs| - 1 ==> effs[i] == ScheduleCallback
    ensures |effs| <= 2
  {
    (if EdgeCrossed(before, after, maxScroll) && hasCallback then [ScheduleCallback] else [])
      + [DelegateToSuper]
  }

  /** Scrolling up or staying put never schedules the callback. */
  lemma NoScheduleMovingUp(hasCallback: bool, before: real, after: real, maxScroll: real)
    requires after <= before
    ensures ScheduleCallback !in WatchScrollY(hasCallback, before, after, maxScroll)
  {
  }

  /** Moving while already past the edge never schedules it again. */
  lemma NoSchedulePastEdge(hasCallback: bool, before: real, after: real, maxScroll: real)
    requires before > Edge(maxScroll)
    ensures ScheduleCallback !in WatchScrollY(hasCallback, before, after, maxScroll)
  {
  }

  /** Of two consecutive moves against the same bottom, at most one
      crosses the edge: a load is asked for once per approach. */
  lemma CrossingOncePerApproach(a: real, b: real, c: real, maxScroll: real)
    ensures !(EdgeCrossed(a, b, maxScroll) && EdgeCrossed(b, c, maxScroll))
  {
  }
}

=== FILE: calendar.dfy ===
/** The week calendar: one column of `CalendarHeight` character rows per day,
    each row classified from the pieces of the day's ranges that fall into
    it, labelled with the names of the ranges that start there. */
module Calendar {
  import opened Wrappers
  import opened CellRanges
  import opened Logs
  import Dates
  import opened PyNum

  /** 96 rows, a quarter of an hour each. */
  const CalendarHeight: int := 96

  /** A range of the day as fractions of the day, with its label. */
  datatype DayRange = DayRange(start: real, end: real, name: string)

  /** `int(x)` on the non-negative scaled ends. */
  function Floor(x: real): int {
    x.Floor
  }

  /** `min(max(x, 0), hi)` */
  function Clamp(x: real, hi: real): (r: real)
    requires 0.0 <= hi
    ensures 0.0 <= r <= hi
    ensures 0.0 <= x <= hi ==> r == x
  {
    if x < 0.0 then 0.0 else if x > hi then hi else x
  }

  /** The keys of `FULL_HOUR_MARKERS`: `int(h * 96 / 24)` for each hour `h`. */
  function HourMarkers(): set<int> {
    set h | 0 <= h < 24 :: h * CalendarHeight / 24
  }

  /** The hour markers are the rows 0, 4, ..., 92. */
  lemma HourMarkerRows(i: int)
    ensures i in HourMarkers() <==> 0 <= i <= 92 && i % 4 == 0
  {
    if 0 <= i <= 92 && i % 4 == 0 {
      var h := i / 4;
      assert h * CalendarHeight / 24 == i;
    }
  }

  // ---------------------------------------------------------------------
  // Cutting a scaled range into per-row pieces
  // ---------------------------------------------------------------------

  /** The pieces a range scaled to rows `[rs, re]` leaves in row `i`: a
      single piece when both ends are fractional and share a row, otherwise
      a head piece in the start's row, a tail piece in the end's row and a
      full piece in every row from `ceil(rs)` up to but excluding `int(re)`. */
  function PiecesAt(rs: real, re: real, c: Color, i: int): (p: seq<Span>)
    requires 0.0 <= rs && 0.0 <= re
    ensures |p| <= 1
    ensures Span(0.0, 1.0, c) in p <==> Ceil(rs) <= i < Floor(re)
    ensures |p| == 1 ==> 0 <= i && (i as real <= rs < i as real + 1.0 || i as real <= re < i as real + 1.0 || Ceil(rs) <= i < Floor(re))
    // both ends fractional in one row: a single piece between them there
    ensures Mod1(rs) != 0.0 && Mod1(re) != 0.0 && Floor(rs) == Floor(re) ==>
      p == if i == Floor(rs) then [Span(Mod1(rs), Mod1(re), c)] else []
    // otherwise a head piece from the start to the row's bottom ...
    ensures Mod1(rs) != 0.0 && !(Mod1(re) != 0.0 && Floor(rs) == Floor(re)) && i == Floor(rs) ==>
      p == [Span(Mod1(rs), 1.0, c)]
    // ... and a tail piece from the row's top to the end
    ensures Mod1(re) != 0.0 && Floor(rs) != Floor(re) && i == Floor(re) ==>
      p == [Span(0.0, Mod1(re), c)]
    // no piece in any other row outside the full rows
    ensures !(Mod1(rs) != 0.0 && i == Floor(rs)) && !(Mod1(re) != 0.0 && i == Floor(re)) ==>
      p == if Ceil(rs) <= i < Floor(re) then [Span(0.0, 1.0, c)] else []
  {
    var hs := Mod1(rs) != 0.0;
    var he := Mod1(re) != 0.0;
    if hs && he && Floor(rs) == Floor(re) then
      (if i == Floor(rs) then [Span(Mod1(rs), Mod1(re), c)] else [])
    else if hs && i == Floor(rs) then [Span(Mod1(rs), 1.0, c)]
    else if he && i == Floor(re) then [Span(0.0, Mod1(re), c)]
    else if Ceil(rs) <= i < Floor(re) then [Span(0.0, 1.0, c)]
    else []
  }

  /** `for i in range(lo, hi): lines_ranges[i].append((0, 1, color))` */
  function FillFull(rows: seq<seq<Span>>, lo: int, hi: int, c: Color): (r: seq<seq<Span>>)
    requires 0 <= lo && hi <= |rows|
    ensures |r| == |rows|
    ensures forall i :: 0 <= i < |rows| ==>
      r[i] == if lo <= i < hi then rows[i] + [Span(0.0, 1.0, c)] else rows[i]
    decreases hi - lo
  {
    if lo >= hi then rows
    else FillFull(rows[lo := rows[lo] + [Span(0.0, 1.0, c)]], lo + 1, hi, c)
  }

  /** The appends of `render` for one range clamped to `[0, H]`, in the
      source's order; every write lands in a row of the grid, and row `i`
      gains exactly `PiecesAt(rs, re, c, i)`. */
  function AddPieces(rows: seq<seq<Span>>, rs: real, re: real, c: Color): (r: seq<seq<Span>>)
    requires |rows| == CalendarHeight
    requires 0.0 <= rs <= CalendarHeight as real && 0.0 <= re <= CalendarHeight as real
    ensures |r| == CalendarHeight
    ensures forall i :: 0 <= i < CalendarHeight ==> r[i] == rows[i] + PiecesAt(rs, re, c, i)
  {
    var hs := Mod1(rs) != 0.0;
    var he := Mod1(re) != 0.0;
    if hs && he && Floor(rs) == Floor(re) then
      rows[Floor(rs) := rows[Floor(rs)] + [Span(Mod1(rs), Mod1(re), c)]]
    else
      var a := if hs then rows[Floor(rs) := rows[Floor(rs)] + [Span(Mod1(rs), 1.0, c)]] else rows;
      var b := if he then a[Floor(re) := a[Floor(re)] + [Span(0.0, Mod1(re), c)]] else a;
      FillFull(b, Ceil(rs), Floor(re), c)
  }

  /** No piece of any range falls outside the rows of the grid. */
  lemma PiecesInsideGrid(rs: real, re: real, c: Color, i: int)
    requires 0.0 <= rs <= CalendarHeight as real && 0.0 <= re <= CalendarHeight as real
    requires i < 0 || i >= CalendarHeight
    ensures PiecesAt(rs, re, c, i) == []
  {
  }

  // ---------------------------------------------------------------------
  // Label placement
  // ---------------------------------------------------------------------

  /** A label: the range's name, its colour and whether it had to move down
      past rows already labelled. */
  datatype Label = Label(moved: bool, name: string, color: Color)

  /** The first row at or after `from` without a label, if any. */
  function FindFree(labels: seq<Option<Label>>, from: nat): (r: Option<nat>)
    ensures r.Some? ==> from <= r.value < |labels| && labels[r.value].None?
    ensures r.Some? ==> forall j :: from <= j < r.value ==> labels[j].Some?
    ensures r.None? <==> forall j :: from <= j < |labels| ==> labels[j].Some?
    decreases |labels| - from
  {
    if from >= |labels| then None
    else if labels[from].None? then Some(from)
    else FindFree(labels, from + 1)
  }

  /** The `while tstart < height` loop: puts the label in the first free row
      at or after `from`, marked moved when it skipped a row; drops it when
      no free row remains. */
  function PlaceLabel(labels: seq<Option<Label>>, from: nat, name: string, c: Color): (r: seq<Option<Label>>)
    ensures |r| == |labels|
    ensures forall i :: 0 <= i < |labels| && labels[i].Some? ==> r[i] == labels[i]
    ensures r == labels <==> forall j :: from <= j < |labels| ==> labels[j].Some?
    ensures forall j :: 0 <= j < |labels| && labels[j].None? && r[j].Some? ==>
      from <= j && r[j] == Some(Label(j > from, name, c))
      && (forall k :: from <= k < j ==> labels[k].Some?)
      && (forall k :: 0 <= k < |labels| && k != j ==> r[k] == labels[k])
  {
    match FindFree(labels, from)
    case None => labels
    case Some(j) =>
      labels[j := Some(Label(j > from, name, c))]
  }

  /** The number of labelled rows. */
  function LabelCount(labels: seq<Option<Label>>): (n: nat)
    ensures n <= |labels|
  {
    if |labels| == 0 then 0
    else LabelCount(labels[..|labels| - 1]) + (if labels[|labels| - 1].Some? then 1 else 0)
  }

  // ---------------------------------------------------------------------
  // The grid of one day: pieces per row and labels per row
  // ---------------------------------------------------------------------

  datatype Grid = Grid(rows: seq<seq<Span>>, labels: seq<Option<Label>>)

  predicate WellFormed(g: Grid) {
    |g.rows| == CalendarHeight && |g.labels| == CalendarHeight
  }

  function EmptyGrid(): (g: Grid)
    ensures WellFormed(g)
    ensures forall i :: 0 <= i < CalendarHeight ==> g.rows[i] == [] && g.labels[i].None?
  {
    Grid(seq(CalendarHeight, _ => []), seq(CalendarHeight, _ => None))
  }

  /** `DARK_BACKGROUND_OPTIONS[hash(name) % 6]`; `hash` is Python's string
      hash, a parameter of the model. */
  function RangeColor(name: string, hash: string -> int): (c: Color)
    ensures c.Palette? && 0 <= c.index < PaletteSize
  {
    Palette(hash(name) % PaletteSize)
  }

  /** A range's ends scaled to rows and clamped to `[0, H]`. */
  function ScaledStart(r: DayRange): (x: real)
    ensures 0.0 <= x <= CalendarHeight as real
  {
    Clamp(r.start * CalendarHeight as real, CalendarHeight as real)
  }

  function ScaledEnd(r: DayRange): (x: real)
    ensures 0.0 <= x <= CalendarHeight as real
  {
    Clamp(r.end * CalendarHeight as real, CalendarHeight as real)
  }

  /** The row where the label search of a range begins: `ceil(rstart)`. */
  function LabelRow(r: DayRange): (n: nat)
    ensures n <= CalendarHeight
  {
    Ceil(ScaledStart(r))
  }

  /** The rows after the pieces of all ranges, in the order given (the
      piece-appending half of the `for rstart, rend, name in self._ranges` loop). */
  function BuildRows(ranges: seq<DayRange>, hash: string -> int): (rows: seq<seq<Span>>)
    ensures |rows| == CalendarHeight
  {
    if |ranges| == 0 then EmptyGrid().rows
    else
      var r := ranges[|ranges| - 1];
      AddPieces(BuildRows(ranges[..|ranges| - 1], hash), ScaledStart(r), ScaledEnd(r), RangeColor(r.name, hash))
  }

  /** The labels after all ranges, in the order given (the label half of
      the same loop; the two halves do not read each other's state). */
  function BuildLabels(ranges: seq<DayRange>, hash: string -> int): (labels: seq<Option<Label>>)
    ensures |labels| == CalendarHeight
  {
    if |ranges| == 0 then EmptyGrid().labels
    else
      var r := ranges[|ranges| - 1];
      PlaceLabel(BuildLabels(ranges[..|ranges| - 1], hash), LabelRow(r), r.name, RangeColor(r.name, hash))
  }

  function BuildGrid(ranges: seq<DayRange>, hash: string -> int): (g: Grid)
    ensures WellFormed(g)
  {
    Grid(BuildRows(ranges, hash), BuildLabels(ranges, hash))
  }

  /** The pieces all ranges leave in row `i`, range by range. */
  function RowPieces(ranges: seq<DayRange>, hash: string -> int, i: int): seq<Span> {
    if |ranges| == 0 then []
    else
      var r := ranges[|ranges| - 1];
      RowPieces(ranges[..|ranges| - 1], hash, i)
        + PiecesAt(ScaledStart(r), ScaledEnd(r), RangeColor(r.name, hash), i)
  }

  /** Row `i` of the grid holds exactly the pieces the ranges leave in it. */
  lemma {:induction false} BuildGridRows(ranges: seq<DayRange>, hash: string -> int, i: int)
    requires 0 <= i < CalendarHeight
    ensures BuildRows(ranges, hash)[i] == RowPieces(ranges, hash, i)
  {
    if |ranges| > 0 {
      BuildGridRows(ranges[..|ranges| - 1], hash, i);
    }
  }

  /** A label, once placed, stays in its row while later ranges are added:
      no row ever has its label replaced by another. */
  lemma {:induction false} LabelsKept(ranges: seq<DayRange>, hash: string -> int, k: nat, j: int)
    requires k <= |ranges| && 0 <= j < CalendarHeight
    requires BuildLabels(ranges[..k], hash)[j].Some?
    ensures BuildLabels(ranges, hash)[j] == BuildLabels(ranges[..k], hash)[j]
    decreases |ranges|
  {
    if k < |ranges| {
      var init := ranges[..|ranges| - 1];
      assert init[..k] == ranges[..k];
      LabelsKept(init, hash, k, j);
    } else {
      assert ranges[..k] == ranges;
    }
  }

  /** The labels placed in the grid never exceed the number of ranges. */
  lemma {:induction false} LabelCountBound(ranges: seq<DayRange>, hash: string -> int)
    ensures LabelCount(BuildLabels(ranges, hash)) <= |ranges|
  {
    if |ranges| == 0 {
      NoLabelsCount(EmptyGrid().labels);
    } else {
      var init := ranges[..|ranges| - 1];
      LabelCountBound(init, hash);
      var r := ranges[|ranges| - 1];
      PlaceLabelCount(BuildLabels(init, hash), LabelRow(r), r.name, RangeColor(r.name, hash));
    }
  }

  lemma {:induction false} NoLabelsCount(labels: seq<Option<Label>>)
    requires forall i :: 0 <= i < |labels| ==> labels[i].None?
    ensures LabelCount(labels) == 0
  {
    if |labels| > 0 {
      NoLabelsCount(labels[..|labels| - 1]);
    }
  }

  /** Placing a label adds at most one labelled row. */
  lemma {:induction false} PlaceLabelCount(labels: seq<Option<Label>>, from: nat, name: string, c: Color)
    ensures LabelCount(PlaceLabel(labels, from, name, c)) <= LabelCount(labels) + 1
  {
    var r := PlaceLabel(labels, from, name, c);
    if r != labels {
      var j :| 0 <= j < |labels| && r[j] != labels[j];
      CountUpdate(labels, j, r[j]);
      assert r == labels[j := r[j]];
    }
  }

  lemma {:induction false} CountUpdate(labels: seq<Option<Label>>, j: int, v: Option<Label>)
    requires 0 <= j < |labels|
    ensures LabelCount(labels[j := v]) <= LabelCount(labels) + 1
    decreases |labels|
  {
    var n := |labels|;
    if j < n - 1 {
      assert labels[j := v][..n - 1] == labels[..n - 1][j := v];
      CountUpdate(labels[..n - 1], j, v);
    } else {
      assert labels[j := v][..n - 1] == labels[..n - 1];
    }
  }

  /** A range whose ends fall on row boundaries `a < b`: rows `a` to `b - 1`
      get one full piece each, all other rows nothing, and its label sits
      unmoved at row `a`. */
  lemma SingleRangeGrid(a: int, b: int, name: string, hash: string -> int)
    requires 0 <= a < b <= CalendarHeight
    ensures var g := BuildGrid([DayRange(a as real / 96.0, b as real / 96.0, name)], hash);
      var c := RangeColor(name, hash);
      && (forall i :: a <= i < b ==> g.rows[i] == [Span(0.0, 1.0, c)])
      && (forall i :: 0 <= i < CalendarHeight && !(a <= i < b) ==> g.rows[i] == [])
      && g.labels[a] == Some(Label(false, name, c))
      && (forall j :: 0 <= j < CalendarHeight && j != a ==> g.labels[j].None?)
  {
    var r := DayRange(a as real / 96.0, b as real / 96.0, name);
    SingleRangeScaled(r, a, b);
    SingleRangeRows(r, a, b, hash);
    SingleRangeLabels(r, a, b, hash);
  }

  lemma SingleRangeScaled(r: DayRange, a: int, b: int)
    requires 0 <= a < b <= CalendarHeight
    requires r.start == a as real / 96.0 && r.end == b as real / 96.0
    ensures ScaledStart(r) == a as real && ScaledEnd(r) == b as real && LabelRow(r) == a
  {
    assert Ceil(a as real) == a;
  }

  lemma SingleRangeRows(r: DayRange, a: int, b: int, hash: string -> int)
    requires 0 <= a < b <= CalendarHeight
    requires ScaledStart(r) == a as real && ScaledEnd(r) == b as real
    ensures forall i :: 0 <= i < CalendarHeight ==>
      BuildRows([r], hash)[i] == if a <= i < b then [Span(0.0, 1.0, RangeColor(r.name, hash))] else []
  {
    var c := RangeColor(r.name, hash);
    assert [r][..0] == [];
    assert Mod1(a as real) == 0.0 && Mod1(b as real) == 0.0;
    assert Ceil(a as real) == a && Floor(b as real) == b;
    var rows := BuildRows([r], hash);
    assert rows == AddPieces(BuildRows([], hash), ScaledStart(r), ScaledEnd(r), c);
    forall i | 0 <= i < CalendarHeight
      ensures rows[i] == if a <= i < b then [Span(0.0, 1.0, c)] else []
    {
      assert rows[i] == [] + PiecesAt(a as real, b as real, c, i);
    }
  }

  lemma SingleRangeLabels(r: DayRange, a: int, b: int, hash: string -> int)
    requires 0 <= a < CalendarHeight && LabelRow(r) == a
    ensures BuildLabels([r], hash)[a] == Some(Label(false, r.name, RangeColor(r.name, hash)))
    ensures forall j :: 0 <= j < CalendarHeight && j != a ==> BuildLabels([r], hash)[j].None?
  {
    assert [r][..0] == [];
    var labels := BuildLabels([r], hash);
    assert labels == PlaceLabel(BuildLabels([], hash), LabelRow(r), r.name, RangeColor(r.name, hash));
    assert FindFree(EmptyGrid().labels, a) == Some(a);
  }

  /** Two ranges starting on the same row: the second label moves to the
      next row and is flagged as moved. */
  lemma SecondLabelMoves(a: int, r1: DayRange, r2: DayRange, hash: string -> int)
    requires 0 <= a < CalendarHeight - 1
    requires r1.start == a as real / 96.0 && r2.start == a as real / 96.0
    ensures var g := BuildGrid([r1, r2], hash);
      && g.labels[a] == Some(Label(false, r1.name, RangeColor(r1.name, hash)))
      && g.labels[a + 1] == Some(Label(true, r2.name, RangeColor(r2.name, hash)))
  {
    assert [r1, r2][..1] == [r1];
    assert [r1][..0] == [];
    assert ScaledStart(r1) == a as real && ScaledStart(r2) == a as real;
    assert Ceil(a as real) == a;
    var l1 := BuildLabels([r1], hash);
    assert LabelRow(r1) == a && LabelRow(r2) == a;
    assert l1 == PlaceLabel(BuildLabels([], hash), LabelRow(r1), r1.name, RangeColor(r1.name, hash));
    assert BuildLabels([r1, r2], hash) == PlaceLabel(l1, a, r2.name, RangeColor(r2.name, hash));
    assert FindFree(EmptyGrid().labels, a) == Some(a);
    assert l1 == EmptyGrid().labels[a := Some(Label(false, r1.name, RangeColor(r1.name, hash)))];
    assert FindFree(l1, a + 1) == Some(a + 1);
    assert FindFree(l1, a) == Some(a + 1);
  }

  // ---------------------------------------------------------------------
  // Composing the text lines
  // ---------------------------------------------------------------------

  /** Python's `ch * n`: empty for `n <= 0`. */
  function Repeat(ch: char, n: int): (s: string)
    ensures |s| == (if n < 0 then 0 else n)
    ensures forall i :: 0 <= i < |s| ==> s[i] == ch
    decreases n
  {
    if n <= 0 then [] else [ch] + Repeat(ch, n - 1)
  }

  /** Python's slice `s[:k]`, where a negative `k` counts from the end. */
  function PyPrefix(s: string, k: int): (p: string)
    ensures |p| <= |s| && p == s[..|p|]
    ensures 0 <= k ==> |p| == if k < |s| then k else |s|
  {
    if k >= |s| then s
    else if k >= 0 then s[..k]
    else if |s| + k >= 0 then s[..|s| + k]
    else []
  }

  /** One rendered row: the cell glyph, an optional one-character label
      prefix (`^` or `=`, drawn on the label's colour) and the rest of the
      row, drawn on the cell colour exactly when the cell is `FULL`. */
  datatype GridLine = GridLine(cell: StyledChar, prefix: Option<(char, Color)>, body: string, bodyOn: Option<Color>)

  function LineText(l: GridLine): string {
    [l.cell.glyph] + (if l.prefix.Some? then [l.prefix.value.0] else []) + l.body
  }

  /** The text after a label's prefix: the name cut to `width - 3`
      characters, one space, then spaces up to `width - 2` characters. */
  function LabelBody(name: string, width: int): (b: string)
    ensures width >= 3 ==> |b| == width - 2
    ensures width >= 3 ==>
      var n := if |name| < width - 3 then |name| else width - 3;
      b[..n] == name[..n] && forall j :: n <= j < |b| ==> b[j] == ' '
  {
    var rname := PyPrefix(name, width - 3) + " ";
    rname + Repeat(' ', width - 2 - |rname|)
  }

  /** The text of an unlabelled row: a rule on the hour-marker rows,
      blanks elsewhere, `width - 1` characters. */
  function RuleBody(i: int, width: int): (b: string)
    ensures |b| == if width < 1 then 0 else width - 1
    ensures forall j :: 0 <= j < |b| ==> b[j] == (if i in HourMarkers() then '─' else ' ')
  {
    Repeat(if i in HourMarkers() then '─' else ' ', width - 1)
  }

  /** Row `i` of the output of `render`. */
  function ComposeLine(i: int, pieces: seq<Span>, tag: Option<Label>, width: int): (l: GridLine)
    ensures var (state, color) := Classify(pieces);
      l.cell == AsText(state, color) && (l.bodyOn.Some? <==> state == Full)
      && (l.bodyOn.Some? ==> l.bodyOn.value == color)
    ensures width >= 3 ==> |LineText(l)| == width
    ensures tag.Some? ==>
      l.prefix == Some((if tag.value.moved then '^' else '=', tag.value.color))
      && l.body == LabelBody(tag.value.name, width)
    ensures tag.None? ==> l.prefix.None? && l.body == RuleBody(i, width)
  {
    var (state, color) := Classify(pieces);
    var on := if state == Full then Some(color) else None;
    match tag
    case Some(lb) =>
      GridLine(AsText(state, color), Some((if lb.moved then '^' else '=', lb.color)),
               LabelBody(lb.name, width), on)
    case None =>
      GridLine(AsText(state, color), None, RuleBody(i, width), on)
  }

  /** `WorkLogCalendarDay.render` below its date header: one line per row.
      A label prefix appears exactly on the rows a label was placed on, and
      for a width that leaves room for the glyph, the prefix and one space
      every line is exactly `width` characters. */
  function Render(ranges: seq<DayRange>, width: int, hash: string -> int): (lines: seq<GridLine>)
    ensures |lines| == CalendarHeight
    ensures forall i :: 0 <= i < CalendarHeight ==>
      lines[i] == ComposeLine(i, BuildRows(ranges, hash)[i], BuildLabels(ranges, hash)[i], width)
    ensures forall i :: 0 <= i < CalendarHeight ==>
      (lines[i].prefix.Some? <==> BuildLabels(ranges, hash)[i].Some?)
    ensures width >= 3 ==> forall i :: 0 <= i < CalendarHeight ==> |LineText(lines[i])| == width
  {
    var g := BuildGrid(ranges, hash);
    seq(CalendarHeight, i requires 0 <= i < CalendarHeight => ComposeLine(i, g.rows[i], g.labels[i], width))
  }

  /** Row `i` of the rendering shows the cell state of the pieces all
      ranges leave in row `i`, range by range, and its body is highlighted
      exactly when that cell is full. */
  lemma RenderRow(ranges: seq<DayRange>, width: int, hash: string -> int, i: int)
    requires 0 <= i < CalendarHeight
    ensures var l := Render(ranges, width, hash)[i];
      var cell := Classify(RowPieces(ranges, hash, i));
      l.cell == AsText(cell.0, cell.1) && (l.bodyOn.Some? <==> cell.0 == Full)
  {
    BuildGridRows(ranges, hash, i);
    var l := Render(ranges, width, hash)[i];
    assert l == ComposeLine(i, BuildRows(ranges, hash)[i], BuildLabels(ranges, hash)[i], width);
  }

  // ---------------------------------------------------------------------
  // Records of the day's logs as fractions of the day
  // ---------------------------------------------------------------------

  /** One record of `_refresh_data`: skipped when it ends before the day or
      starts after it; otherwise clamped to the day and scaled to fractions
      of it. */
  function ClipRecord(rec: Record, day: int, now: real): (r: Option<(real, real)>)
    ensures r.None? <==> rec.start > Dates.DayUntil(day) || EndOr(rec, now) < Dates.DaySince(day)
    ensures r.Some? ==> 0.0 <= r.value.0 < 1.0 && 0.0 <= r.value.1 < 1.0
    ensures r.Some? && rec.start <= EndOr(rec, now) ==> r.value.0 <= r.value.1
    ensures r.Some? && Dates.DaySince(day) <= rec.start ==>
      Dates.DaySince(day) + r.value.0 * Dates.DaySeconds == rec.start
    ensures r.Some? && EndOr(rec, now) <= Dates.DayUntil(day) ==>
      Dates.DaySince(day) + r.value.1 * Dates.DaySeconds == EndOr(rec, now)
    ensures r.Some? && rec.start < Dates.DaySince(day) ==> r.value.0 == 0.0
    ensures r.Some? && EndOr(rec, now) > Dates.DayUntil(day) ==>
      Dates.DaySince(day) + r.value.1 * Dates.DaySeconds == Dates.DayUntil(day)
  {
    var since := Dates.DaySince(day);
    var until := Dates.DayUntil(day);
    var st := rec.start;
    var en := EndOr(rec, now);
    if st > until || en < since then None
    else
      var st' := if st < since then since else st;
      var en' := if en > until then until else en;
      Some(((st' - since) / Dates.DaySeconds, (en' - since) / Dates.DaySeconds))
  }

  /** `f"{log['name']}: {description}"` with a missing description as "". */
  function RangeName(log: Log): (s: string)
    ensures var d := log.description.GetOr("");
      |s| == |log.name| + 2 + |d| && s[..|log.name|] == log.name
      && s[|log.name|..|log.name| + 2] == ": " && s[|log.name| + 2..] == d
    ensures log.description.None? ==> s == log.name + ": "
  {
    log.name + ": " + log.description.GetOr("")
  }

  /** The ranges one log contributes, record by record. */
  function LogRanges(log: Log, recs: seq<Record>, day: int, now: real): (rs: seq<DayRange>)
    ensures |rs| <= |recs|
    ensures forall r :: r in rs ==> r.name == RangeName(log) && 0.0 <= r.start < 1.0 && 0.0 <= r.end < 1.0
  {
    if |recs| == 0 then []
    else
      var init := LogRanges(log, recs[..|recs| - 1], day, now);
      match ClipRecord(recs[|recs| - 1], day, now)
      case None => init
      case Some((s, e)) => init + [DayRange(s, e, RangeName(log))]
  }

  /** The values of the present options, in order. */
  function Present<T>(xs: seq<Option<T>>): seq<T> {
    if |xs| == 0 then []
    else (if xs[0].Some? then [xs[0].value] else []) + Present(xs[1..])
  }

  lemma {:induction false} PresentSnoc<T>(xs: seq<Option<T>>, x: Option<T>)
    ensures Present(xs + [x]) == Present(xs) + (if x.Some? then [x.value] else [])
  {
    if |xs| > 0 {
      assert (xs + [x])[1..] == xs[1..] + [x];
      PresentSnoc(xs[1..], x);
    } else {
      assert [x][1..] == [];
    }
  }

  /** The result of `ClipRecord` for each record, in record order. */
  function ClipAll(recs: seq<Record>, day: int, now: real): (cs: seq<Option<(real, real)>>)
    ensures |cs| == |recs|
  {
    seq(|recs|, j requires 0 <= j < |recs| => ClipRecord(recs[j], day, now))
  }

  /** The ranges of one log are exactly the records `ClipRecord` keeps, in
      record order, each named after the log. */
  lemma {:induction false} LogRangesClipped(log: Log, recs: seq<Record>, day: int, now: real)
    ensures var kept := Present(ClipAll(recs, day, now));
      var rs := LogRanges(log, recs, day, now);
      |rs| == |kept|
      && forall k :: 0 <= k < |rs| ==> rs[k] == DayRange(kept[k].0, kept[k].1, RangeName(log))
  {
    if |recs| > 0 {
      var init := recs[..|recs| - 1];
      LogRangesClipped(log, init, day, now);
      assert ClipAll(recs, day, now) == ClipAll(init, day, now) + [ClipRecord(recs[|recs| - 1], day, now)];
      PresentSnoc(ClipAll(init, day, now), ClipRecord(recs[|recs| - 1], day, now));
    }
  }

  /** The `_ranges` of a day after the logs received so far. */
  function DayRanges(logs: seq<Log>, day: int, now: real): (rs: seq<DayRange>)
    ensures forall r :: r in rs ==> 0.0 <= r.start < 1.0 && 0.0 <= r.end < 1.0
  {
    if |logs| == 0 then []
    else
      var log := logs[|logs| - 1];
      DayRanges(logs[..|logs| - 1], day, now) + LogRanges(log, log.records, day, now)
  }

  /** The ranges of a run of logs are the ranges of each log, concatenated
      in the order the logs arrive. */
  lemma {:induction false} DayRangesConcat(a: seq<Log>, b: seq<Log>, day: int, now: real)
    ensures DayRanges(a + b, day, now) == DayRanges(a, day, now) + DayRanges(b, day, now)
    decreases |b|
  {
    if |b| == 0 {
      assert a + b == a;
    } else {
      var init := b[..|b| - 1];
      var last := b[|b| - 1];
      assert (a + b)[..|a + b| - 1] == a + init;
      DayRangesConcat(a, init, day, now);
    }
  }

  /** One log contributes its own ranges. */
  lemma DayRangesSingle(log: Log, day: int, now: real)
    ensures DayRanges([log], day, now) == LogRanges(log, log.records, day, now)
  {
    assert [log][..0] == [];
  }

  /** The column is refreshed after every log; each intermediate `_ranges`
      is a prefix of the final one, so the column only ever grows during
      one refresh. */
  lemma {:induction false} DayRangesGrow(logs: seq<Log>, k: nat, day: int, now: real)
    requires k <= |logs|
    ensures var final := DayRanges(logs, day, now);
      var part := DayRanges(logs[..k], day, now);
      |part| <= |final| && final[..|part|] == part
    decreases |logs|
  {
    if k < |logs| {
      var init := logs[..|logs| - 1];
      assert init[..k] == logs[..k];
      DayRangesGrow(init, k, day, now);
    } else {
      assert logs[..k] == logs;
    }
  }

  // ---------------------------------------------------------------------
  // The week
  // ---------------------------------------------------------------------

  /** `_get_week_start`: the Monday of the week of day ordinal `d`. */
  function WeekStart(d: int): (ws: int)
    ensures Dates.Weekday(ws) == 0
    ensures ws <= d < ws + 7
  {
    d - Dates.Weekday(d)
  }

  /** The Monday of a week is its own week start. */
  lemma WeekStartIdempotent(d: int)
    ensures WeekStart(WeekStart(d)) == WeekStart(d)
  {
  }

  /** The seven day columns of `update_content`: `week_start + i`. */
  function WeekDays(ws: int): (days: seq<int>)
    ensures |days| == 7
    ensures forall i :: 0 <= i < 7 ==> days[i] - ws == i
    ensures Dates.Weekday(ws) == 0 ==> forall i :: 0 <= i < 7 ==> Dates.Weekday(days[i]) == i
  {
    seq(7, i => ws + i)
  }

  /** The calendar's state: the week start and the day shown by each column. */
  datatype CalendarView = CalendarView(weekStart: int, columns: seq<int>)

  /** A week start is a Monday that is a `date`, so its ordinal is at least 1. */
  predicate ValidView(v: CalendarView) {
    1 <= v.weekStart && Dates.Weekday(v.weekStart) == 0 && v.columns == WeekDays(v.weekStart)
  }

  /** The week start of a `date` is itself a `date`: the first Monday,
      0001-01-01, has ordinal 1. */
  lemma WeekStartValid(d: int)
    requires 1 <= d
    ensures 1 <= WeekStart(d)
  {
  }

  /** The only Monday among the first seven days is ordinal 1. */
  lemma FirstWeek(ws: int)
    requires 1 <= ws < 8 && Dates.Weekday(ws) == 0
    ensures ws == 1
  {
    assert ws + 6 == 7 * ((ws + 6) / 7);
  }

  /** Mounting shows the week of `today`. */
  function Mount(today: int): (v: CalendarView)
    requires 1 <= today
    ensures ValidView(v) && today in v.columns
  {
    var ws := WeekStart(today);
    WeekStartValid(today);
    assert WeekDays(ws)[today - ws] == today;
    CalendarView(ws, WeekDays(ws))
  }

  datatype WeekButton = PreviousWeek | NextWeek

  /** `date -= timedelta(days=7)` below ordinal 1 raises. */
  datatype CalendarError = OverflowError

  /** The `<` and `>` buttons move the week by seven days; the new week
      start differs from the old one, so the watcher refreshes the columns.
      "previous" from the week of 0001-01-01 leaves the range of `date`. */
  function Press(v: CalendarView, b: WeekButton): (r: Result<CalendarView, CalendarError>)
    requires ValidView(v)
    ensures r.Failure? <==> b == PreviousWeek && v.weekStart == 1
    ensures r.Success? ==> ValidView(r.value)
    ensures r.Success? ==> r.value.weekStart != v.weekStart
    ensures r.Success? ==> forall i :: 0 <= i < 7 ==>
      r.value.columns[i] == v.columns[i] + (if b == NextWeek then 7 else -7)
  {
    var ws := if b == NextWeek then v.weekStart + 7 else v.weekStart - 7;
    if ws < 1 then
      FirstWeek(v.weekStart);
      assert b == PreviousWeek && v.weekStart == 1;
      Failure(OverflowError)
    else
      Dates.WeekdayStep(ws);
      Success(CalendarView(ws, WeekDays(ws)))
  }
}

=== FILE: cell_ranges.dfy ===
/** The per-cell part of the calendar day renderer: fractional ranges inside
    one character cell, their merging, and the classification of the merged
    ranges into one of eighteen glyph states. */
module CellRanges {

  /** A background colour: the fallback grey used for mixed or empty cells,
      or one of the six entries of the dark palette. */
  datatype Color = Fallback | Palette(index: int)

  const PaletteSize: int := 6

  /** A fractional range of one cell (or of one day) with its colour. */
  datatype Span = Span(start: real, end: real, color: Color)

  /** Half of one eighth: the snapping tolerance of the classifier. */
  const HalfStep: real := 1.0 / 16.0

  predicate SortedByStart(s: seq<Span>) {
    forall i, j :: 0 <= i < j < |s| ==> s[i].start <= s[j].start
  }

  /** Consecutive ranges neither overlap nor touch. */
  predicate Separated(s: seq<Span>) {
    forall i :: 0 <= i < |s| - 1 ==> s[i].end < s[i + 1].start
  }

  predicate In(sp: Span, x: real) {
    sp.start <= x <= sp.end
  }

  /** Some range of `s` contains the point `x`. */
  predicate Covers(s: seq<Span>, x: real) {
    exists sp :: sp in s && In(sp, x)
  }

  predicate AllColored(s: seq<Span>, c: Color) {
    forall i :: 0 <= i < |s| ==> s[i].color == c
  }

  // ---------------------------------------------------------------------
  // Sorting (Python's stable `sorted(ranges, key=lambda r: r[0])`)
  // ---------------------------------------------------------------------

  /** Inserts `x` before the first element whose start is not below its own,
      so that earlier inputs stay ahead of later ones with an equal start. */
  function Insert(x: Span, s: seq<Span>): (r: seq<Span>)
    requires SortedByStart(s)
    ensures SortedByStart(r)
    ensures multiset(r) == multiset(s) + multiset{x}
    ensures |r| == |s| + 1
  {
    if |s| == 0 || x.start <= s[0].start then [x] + s
    else
      var t := Insert(x, s[1..]);
      InsertBound(x, s, t);
      assert s == [s[0]] + s[1..];
      assert multiset([s[0]] + t) == multiset{s[0]} + multiset(t);
      [s[0]] + t
  }

  /** What is inserted behind the head of a sorted sequence starts no
      earlier than the head. */
  lemma InsertBound(x: Span, s: seq<Span>, t: seq<Span>)
    requires SortedByStart(s) && |s| > 0 && x.start > s[0].start
    requires multiset(t) == multiset(s[1..]) + multiset{x}
    ensures forall j :: 0 <= j < |t| ==> s[0].start <= t[j].start
  {
    forall j | 0 <= j < |t|
      ensures s[0].start <= t[j].start
    {
      assert t[j] in multiset(t);
      if t[j] != x {
        assert t[j] in multiset(s[1..]);
        var k :| 0 <= k < |s[1..]| && s[1..][k] == t[j];
        assert s[k + 1] == t[j];
      }
    }
  }

  function SortByStart(s: seq<Span>): (r: seq<Span>)
    ensures SortedByStart(r)
    ensures multiset(r) == multiset(s)
    ensures |r| == |s|
  {
    if |s| == 0 then []
    else
      assert s == [s[0]] + s[1..];
      Insert(s[0], SortByStart(s[1..]))
  }

  /** Sorting keeps exactly the same ranges, so it covers the same points. */
  lemma SortCovers(s: seq<Span>, x: real)
    ensures Covers(SortByStart(s), x) <==> Covers(s, x)
  {
    var t := SortByStart(s);
    forall sp ensures sp in t <==> sp in s {
      assert sp in t <==> sp in multiset(t);
      assert sp in s <==> sp in multiset(s);
    }
  }

  /** Sorting an already sorted sequence changes nothing. */
  lemma {:induction false} SortSorted(s: seq<Span>)
    requires SortedByStart(s)
    ensures SortByStart(s) == s
  {
    if |s| > 0 {
      SortSorted(s[1..]);
      assert SortByStart(s[1..]) == s[1..];
    }
  }

  // ---------------------------------------------------------------------
  // The sweep of `_merge_ranges`
  // ---------------------------------------------------------------------

  /** Folds `next` into the accumulated range: the end grows to the larger
      end and a colour mismatch turns the colour into the fallback. */
  function Absorb(acc: Span, next: Span): Span {
    Span(acc.start,
         if next.end > acc.end then next.end else acc.end,
         if acc.color != next.color then Fallback else acc.color)
  }

  /** The inner loop: absorbs the ranges of `rest` while their start does
      not exceed the accumulated end; returns the grown range and how many
      ranges it absorbed. */
  function Grow(acc: Span, rest: seq<Span>): (r: (Span, nat))
    ensures r.1 <= |rest|
    ensures r.0.start == acc.start && r.0.end >= acc.end
    ensures r.1 < |rest| ==> r.0.end < rest[r.1].start
    ensures forall i :: 0 <= i < r.1 ==> rest[i].end <= r.0.end
    decreases |rest|
  {
    if |rest| == 0 || rest[0].start > acc.end then (acc, 0)
    else
      var g := Grow(Absorb(acc, rest[0]), rest[1..]);
      (g.0, g.1 + 1)
  }

  /** The outer loop over the sorted ranges. */
  function Sweep(s: seq<Span>): (r: seq<Span>)
    requires SortedByStart(s)
    ensures |r| <= |s| && (|s| > 0 <==> |r| > 0)
    ensures |s| > 0 ==> r[0].start == s[0].start
    ensures forall o :: o in r ==> |s| > 0 && s[0].start <= o.start
    ensures SortedByStart(r) && Separated(r)
    decreases |s|
  {
    if |s| == 0 then []
    else
      var g := Grow(s[0], s[1..]);
      var rest := s[1 + g.1..];
      var tail := Sweep(rest);
      assert forall o :: o in tail ==> s[0].start <= o.start by {
        assert |rest| > 0 ==> rest[0] == s[1 + g.1];
      }
      assert |rest| > 0 ==> g.0.end < tail[0].start by {
        assert |rest| > 0 ==> rest[0] == s[1..][g.1];
      }
      [g.0] + tail
  }

  /** `_merge_ranges`: sorts by start and coalesces overlapping or touching
      ranges into sorted, strictly separated ranges, never more than given. */
  function MergeRanges(ranges: seq<Span>): (r: seq<Span>)
    ensures |r| <= |ranges|
    ensures |r| == 0 <==> |ranges| == 0
    ensures SortedByStart(r) && Separated(r)
  {
    if |ranges| == 0 then [] else Sweep(SortByStart(ranges))
  }

  // ---------------------------------------------------------------------
  // Properties of the merge
  // ---------------------------------------------------------------------

  lemma CoversConcat(a: seq<Span>, b: seq<Span>, x: real)
    ensures Covers(a + b, x) <==> Covers(a, x) || Covers(b, x)
  {
    if Covers(a + b, x) {
      var sp :| sp in a + b && In(sp, x);
      assert sp in a || sp in b;
    }
    if Covers(a, x) {
      var sp :| sp in a && In(sp, x);
      assert sp in a + b;
    }
    if Covers(b, x) {
      var sp :| sp in b && In(sp, x);
      assert sp in a + b;
    }
  }

  lemma CoversSingleton(sp: Span, x: real)
    ensures Covers([sp], x) <==> In(sp, x)
  {
    if In(sp, x) {
      assert sp in [sp];
    }
  }

  lemma SortedTail(s: seq<Span>)
    requires SortedByStart(s) && |s| > 0
    ensures SortedByStart(s[1..])
    ensures |s| > 1 ==> s[0].start <= s[1].start
  {
  }

  /** Absorbing an overlapping range covers exactly the points of both. */
  lemma AbsorbCovers(acc: Span, next: Span, rest: seq<Span>, x: real)
    requires acc.start <= next.start <= acc.end
    ensures Covers([Absorb(acc, next)] + rest, x) <==> Covers([acc] + ([next] + rest), x)
  {
    var a := Absorb(acc, next);
    assert In(a, x) <==> In(acc, x) || In(next, x);
    CoversConcat([a], rest, x);
    CoversSingleton(a, x);
    CoversConcat([acc], [next] + rest, x);
    CoversSingleton(acc, x);
    CoversConcat([next], rest, x);
    CoversSingleton(next, x);
  }

  /** Growing the accumulator covers exactly the points of the accumulator
      and of the ranges it absorbed. */
  lemma {:induction false} GrowCovers(acc: Span, rest: seq<Span>, x: real)
    requires SortedByStart(rest)
    requires |rest| > 0 ==> acc.start <= rest[0].start
    ensures var g := Grow(acc, rest);
      Covers([g.0] + rest[g.1..], x) <==> Covers([acc] + rest, x)
    decreases |rest|
  {
    var g := Grow(acc, rest);
    if |rest| == 0 || rest[0].start > acc.end {
      assert rest[g.1..] == rest;
    } else {
      var a := Absorb(acc, rest[0]);
      var tail := rest[1..];
      var h := Grow(a, tail);
      assert g == (h.0, h.1 + 1);
      SortedTail(rest);
      GrowCovers(a, tail, x);
      assert tail[h.1..] == rest[g.1..];
      AbsorbCovers(acc, rest[0], tail, x);
      assert [rest[0]] + tail == rest;
    }
  }

  lemma {:induction false} SweepCovers(s: seq<Span>, x: real)
    requires SortedByStart(s)
    ensures Covers(Sweep(s), x) <==> Covers(s, x)
    decreases |s|
  {
    if |s| > 0 {
      var g := Grow(s[0], s[1..]);
      var rest := s[1 + g.1..];
      SweepCovers(rest, x);
      GrowCovers(s[0], s[1..], x);
      assert s[1..][g.1..] == rest;
      CoversConcat([g.0], Sweep(rest), x);
      CoversConcat([g.0], rest, x);
      assert s == [s[0]] + s[1..];
    }
  }

  /** Merging covers exactly the union of the inputs: a point lies in some
      merged range if and only if it lies in some input range. */
  lemma MergeCovers(ranges: seq<Span>, x: real)
    ensures Covers(MergeRanges(ranges), x) <==> Covers(ranges, x)
  {
    if |ranges| > 0 {
      SweepCovers(SortByStart(ranges), x);
      SortCovers(ranges, x);
    }
  }

  /** A range strictly before the next one absorbs nothing. */
  lemma GrowSeparated(s: seq<Span>)
    requires |s| > 0 && (|s| > 1 ==> s[0].end < s[1].start)
    ensures Grow(s[0], s[1..]) == (s[0], 0)
  {
  }

  /** On sorted and separated input the sweep absorbs nothing. */
  lemma {:induction false} SweepSeparated(s: seq<Span>)
    requires SortedByStart(s) && Separated(s)
    ensures Sweep(s) == s
    decreases |s|
  {
    if |s| > 0 {
      GrowSeparated(s);
      assert s[1..] == s[1 + 0..];
      SweepSeparated(s[1..]);
      assert s == [s[0]] + s[1..];
    }
  }

  /** Merging is idempotent. */
  lemma MergeIdempotent(ranges: seq<Span>)
    ensures MergeRanges(MergeRanges(ranges)) == MergeRanges(ranges)
  {
    var m := MergeRanges(ranges);
    if |m| > 0 {
      SortSorted(m);
      SweepSeparated(m);
    }
  }

  /** A merged range keeps the colour of the accumulator only when every
      range it absorbed has that colour; otherwise it takes the fallback. */
  lemma {:induction false} GrowColor(acc: Span, rest: seq<Span>)
    ensures var g := Grow(acc, rest);
      g.0.color == (if AllColored(rest[..g.1], acc.color) then acc.color else Fallback)
    decreases |rest|
  {
    if |rest| > 0 && rest[0].start <= acc.end {
      var a := Absorb(acc, rest[0]);
      GrowColor(a, rest[1..]);
      var g := Grow(acc, rest);
      var tail := rest[1..][..g.1 - 1];
      assert rest[..g.1] == [rest[0]] + tail;
      assert forall i :: 0 <= i < |tail| ==> rest[..g.1][i + 1] == tail[i];
      if rest[0].color == acc.color {
        assert AllColored(rest[..g.1], acc.color) <==> AllColored(tail, acc.color);
      } else {
        assert !AllColored(rest[..g.1], acc.color);
      }
    }
  }

  // ---------------------------------------------------------------------
  // WLCalCS: the glyph states of a calendar cell
  // ---------------------------------------------------------------------

  /** A count of eighths strictly inside a cell. */
  type Eighth = k: int | 1 <= k <= 7 witness 1

  /** `End(k)`: a range from the cell's top edge to `k` eighths;
      `Start(k)`: a range of `k` eighths ending at the cell's bottom edge;
      `Middle`: one range roughly centred; `Fuzzy`: anything else. */
  datatype CellState = Empty | Full | End(k: Eighth) | Start(k: Eighth) | Middle | Fuzzy

  /** `WLCalCS.range_position`: the edge position the state stands for. */
  function RangePosition(s: CellState): (p: real)
    ensures 0.0 <= p <= 1.0
  {
    match s
    case Empty => 0.0
    case Full => 1.0
    case End(k) => k as real / 8.0
    case Start(k) => (8 - k) as real / 8.0
    case Middle => 0.5
    case Fuzzy => 0.5
  }

  /** Scans `END_k` for `k` from `top` down to 1 and takes the first whose
      snapped position minus the tolerance is reached by `end`. */
  function PickEnd(end: real, top: nat): (s: CellState)
    requires top <= 7
    ensures s.Empty? || s.End?
    ensures s.Empty? <==> top == 0 || end < HalfStep
    ensures s.End? ==> s.k <= top && end >= RangePosition(s) - HalfStep
    ensures s.End? && s.k < top ==> end < RangePosition(s) + HalfStep
    decreases top
  {
    if top == 0 then Empty
    else if end >= top as real / 8.0 - HalfStep then End(top)
    else PickEnd(end, top - 1)
  }

  /** Scans `START_k` for `k` from `top` down to 1 and takes the first whose
      snapped position plus the tolerance lies beyond `start`. */
  function PickStart(start: real, top: nat): (s: CellState)
    requires top <= 7
    ensures s.Empty? || s.Start?
    ensures s.Empty? <==> top == 0 || start >= 1.0 - HalfStep
    ensures s.Start? ==> s.k <= top && start < RangePosition(s) + HalfStep
    ensures s.Start? && s.k < top ==> start >= RangePosition(s) - HalfStep
    decreases top
  {
    if top == 0 then Empty
    else if start < (8 - top) as real / 8.0 + HalfStep then Start(top)
    else PickStart(start, top - 1)
  }

  /** The classification of the single range left after merging. The four
      branches of the source are separated by whether the start snaps to
      the top edge and the end to the bottom edge. */
  function ClassifyOne(start: real, end: real): (s: CellState)
    ensures s == Full <==> start < HalfStep && end >= 1.0 - HalfStep
    ensures start < HalfStep && end < 1.0 - HalfStep ==>
      (s.End? || s.Empty?)
      && (s.End? ==> RangePosition(s) - HalfStep <= end < RangePosition(s) + HalfStep)
      && (s.Empty? <==> end < HalfStep)
    ensures start >= HalfStep && end >= 1.0 - HalfStep ==>
      (s.Start? || s.Empty?)
      && (s.Start? ==> RangePosition(s) - HalfStep <= start < RangePosition(s) + HalfStep)
      && (s.Empty? <==> start >= 1.0 - HalfStep)
    ensures start >= HalfStep && end < 1.0 - HalfStep ==>
      (s == Middle <==> start < 0.5 + HalfStep && end >= 0.5 - HalfStep)
      && (s == Middle || s == Fuzzy)
  {
    if start < HalfStep && end >= 1.0 - HalfStep then Full
    else if start < HalfStep then PickEnd(end, 7)
    else if end >= 1.0 - HalfStep then PickStart(start, 7)
    else if start < 0.5 + HalfStep && end >= 0.5 - HalfStep then Middle
    else Fuzzy
  }

  /** `WLCalCS.from_ranges`: merges the cell's ranges first; none gives
      `Empty` and several give `Fuzzy`, both in the fallback colour; a single
      range is classified by `ClassifyOne` and keeps its colour. */
  function Classify(ranges: seq<Span>): (r: (CellState, Color))
    ensures |ranges| == 0 ==> r == (Empty, Fallback)
    ensures |MergeRanges(ranges)| > 1 ==> r == (Fuzzy, Fallback)
    ensures |MergeRanges(ranges)| == 1 ==>
      var m := MergeRanges(ranges)[0];
      r == (ClassifyOne(m.start, m.end), m.color)
  {
    var merged := MergeRanges(ranges);
    if |merged| == 0 then (Empty, Fallback)
    else if |merged| != 1 then (Fuzzy, Fallback)
    else (ClassifyOne(merged[0].start, merged[0].end), merged[0].color)
  }

  /** One styled character: the glyph, its foreground colour and whether the
      style adds `reverse`. */
  datatype StyledChar = StyledChar(glyph: char, color: Color, reverse: bool)

  /** `WLCalCS.as_text`. */
  function AsText(s: CellState, color: Color): (t: StyledChar)
    ensures t.color == color
  {
    match s
    case Empty => StyledChar(' ', color, false)
    case Full => StyledChar('█', color, false)
    case End(k) =>
      if k == 1 then StyledChar('▔', color, false)
      else if k == 2 then StyledChar('▂', color, true)
      else if k == 3 then StyledChar('▄', color, true)
      else if k == 4 then StyledChar('▀', color, false)
      else if k == 5 then StyledChar('▅', color, true)
      else if k == 6 then StyledChar('▆', color, true)
      else StyledChar('▇', color, true)
    case Start(k) =>
      if k == 1 then StyledChar('▁', color, false)
      else if k == 2 then StyledChar('▂', color, false)
      else if k == 3 then StyledChar('▃', color, false)
      else if k == 4 then StyledChar('▄', color, false)
      else if k == 5 then StyledChar('▅', color, false)
      else if k == 6 then StyledChar('▆', color, false)
      else StyledChar('▇', color, false)
    case Middle => StyledChar('━', color, false)
    case Fuzzy => StyledChar('░', color, false)
  }

  /** Every state has its own glyph-and-reverse pair, so a rendered cell
      tells its state apart from all the others. */
  lemma AsTextInjective(a: CellState, b: CellState, c: Color)
    requires AsText(a, c) == AsText(b, c)
    ensures a == b
  {
  }

  // ---------------------------------------------------------------------
  // Concrete cases
  // ---------------------------------------------------------------------

  lemma MergeEmpty()
    ensures MergeRanges([]) == []
  {
  }

  lemma ClassifyNone()
    ensures Classify([]) == (Empty, Fallback)
  {
  }

  lemma ClassifyWhole(c: Color)
    ensures Classify([Span(0.0, 1.0, c)]) == (Full, c)
  {
    assert MergeRanges([Span(0.0, 1.0, c)]) == [Span(0.0, 1.0, c)];
  }

  /** The symmetric half cells: the top half is `END_4`, the bottom half `START_4`. */
  lemma ClassifyHalves(c: Color)
    ensures Classify([Span(0.0, 0.5, c)]) == (End(4), c)
    ensures Classify([Span(0.5, 1.0, c)]) == (Start(4), c)
  {
    assert MergeRanges([Span(0.0, 0.5, c)]) == [Span(0.0, 0.5, c)];
    assert MergeRanges([Span(0.5, 1.0, c)]) == [Span(0.5, 1.0, c)];
  }

  /** Touching ranges merge before classification. */
  lemma ClassifyTouching(c: Color)
    ensures Classify([Span(0.0, 0.3, c), Span(0.3, 1.0, c)]) == (Full, c)
  {
    var two := [Span(0.0, 0.3, c), Span(0.3, 1.0, c)];
    SortSorted(two);
    assert Grow(two[0], two[1..]) == (Span(0.0, 1.0, c), 1);
    assert MergeRanges(two) == [Span(0.0, 1.0, c)];
  }

  /** Two disjoint ranges are `FUZZY`. */
  lemma ClassifyApart(c: Color)
    ensures Classify([Span(0.1, 0.3, c), Span(0.6, 0.8, c)]) == (Fuzzy, Fallback)
  {
    var apart := [Span(0.1, 0.3, c), Span(0.6, 0.8, c)];
    SortSorted(apart);
    SweepSeparated(apart);
  }
}

=== FILE: dates.dfy ===
/** Calendar dates as Python's `datetime.date` sees them: a day ordinal
    (0001-01-01 is ordinal 1, a Monday) and a (year, month, day) view, tied
    together by `ToOrdinal`. */
module Dates {

  /** Seconds in one day; the time-stamps of the model are real seconds
      counted from midnight of day ordinal 0, so day `d` starts at
      `d * DaySeconds`. */
  const DaySeconds: real := 86400.0

  /** `time.max` is one microsecond before midnight. */
  const Microsecond: real := 0.000001

  /** `datetime.combine(d, time.min)` for the day with ordinal `day`. */
  function DaySince(day: int): real {
    day as real * DaySeconds
  }

  /** `datetime.combine(d, time.max)` for the day with ordinal `day`. */
  function DayUntil(day: int): real {
    DaySince(day) + DaySeconds - Microsecond
  }

  /** Python's `date.weekday()` on a day ordinal: Monday is 0, Sunday 6. */
  function Weekday(ord: int): (w: int)
    ensures 0 <= w < 7
  {
    (ord + 6) % 7
  }

  predicate IsLeap(y: int) {
    y % 4 == 0 && (y % 100 != 0 || y % 400 == 0)
  }

  function DaysInMonth(y: int, m: int): (n: int)
    requires 1 <= m <= 12
    ensures 28 <= n <= 31
  {
    if m == 2 then (if IsLeap(y) then 29 else 28)
    else if m == 4 || m == 6 || m == 9 || m == 11 then 30
    else 31
  }

  datatype Date = Date(year: int, month: int, day: int)

  /** A date Python can construct; `date(y, m, d)` raises `ValueError`
      otherwise. The upper year bound 9999 is not modelled. */
  predicate Valid(d: Date) {
    1 <= d.year && 1 <= d.month <= 12 && 1 <= d.day <= DaysInMonth(d.year, d.month)
  }

  /** `d + timedelta(days=1)` */
  function NextDay(d: Date): (r: Date)
    requires Valid(d)
    ensures Valid(r)
    ensures r.day == 1 <==> d.day == DaysInMonth(d.year, d.month)
    ensures r.month == d.month <==> d.day < DaysInMonth(d.year, d.month)
  {
    if d.day < DaysInMonth(d.year, d.month) then Date(d.year, d.month, d.day + 1)
    else if d.month < 12 then Date(d.year, d.month + 1, 1)
    else Date(d.year + 1, 1, 1)
  }

  /** `d - timedelta(days=1)`, for a date after 0001-01-01. */
  function PrevDay(d: Date): (r: Date)
    requires Valid(d) && (d.year > 1 || d.month > 1 || d.day > 1)
    ensures Valid(r) && NextDay(r) == d
  {
    if d.day > 1 then Date(d.year, d.month, d.day - 1)
    else if d.month > 1 then Date(d.year, d.month - 1, DaysInMonth(d.year, d.month - 1))
    else Date(d.year - 1, 12, 31)
  }

  /** `d + timedelta(days=n)` for a non-negative `n`. */
  function AddDays(d: Date, n: nat): (r: Date)
    requires Valid(d)
    ensures Valid(r)
    decreases n
  {
    if n == 0 then d else AddDays(NextDay(d), n - 1)
  }

  /** Days in the years before `y` (Python's `_days_before_year`). */
  function DaysBeforeYear(y: int): int
    requires y >= 1
  {
    var p := y - 1;
    p * 365 + p / 4 - p / 100 + p / 400
  }

  /** Days in the months of year `y` before month `m` (Python's `_days_before_month`). */
  function DaysBeforeMonth(y: int, m: int): int
    requires 1 <= m <= 12
  {
    var leap := if IsLeap(y) then 1 else 0;
    match m
    case 1 => 0
    case 2 => 31
    case 3 => 59 + leap
    case 4 => 90 + leap
    case 5 => 120 + leap
    case 6 => 151 + leap
    case 7 => 181 + leap
    case 8 => 212 + leap
    case 9 => 243 + leap
    case 10 => 273 + leap
    case 11 => 304 + leap
    case _ => 334 + leap
  }

  /** Python's `date.toordinal()`. */
  function ToOrdinal(d: Date): (o: int)
    requires Valid(d)
    ensures o >= 1
    ensures o == 1 <==> d == Date(1, 1, 1)
  {
    DaysBeforeYear(d.year) + DaysBeforeMonth(d.year, d.month) + d.day
  }

  /** 1 January of year 1 is a Monday. */
  lemma FirstDayMonday()
    ensures Weekday(ToOrdinal(Date(1, 1, 1))) == 0
  {
    assert DaysBeforeYear(1) == 0;
    assert DaysBeforeMonth(1, 1) == 0;
  }

  /** Each day is the next day of the week after the one before, wrapping
      from Sunday to Monday, so the weekday repeats every seven days. */
  lemma WeekdayStep(o: int)
    ensures Weekday(o + 1) == (Weekday(o) + 1) % 7
    ensures Weekday(o + 7) == Weekday(o)
  {
    var q := (o + 6) / 7;
    assert o + 6 == 7 * q + Weekday(o);
    if Weekday(o) == 6 {
      assert o + 7 == 7 * (q + 1);
    } else {
      assert o + 7 == 7 * q + (Weekday(o) + 1);
    }
    assert o + 13 == 7 * (q + 1) + Weekday(o);
  }

  /** `y / 4` steps up by one exactly when `y` is a multiple of 4. */
  lemma Step4(y: int)
    ensures y / 4 - (y - 1) / 4 == (if y % 4 == 0 then 1 else 0)
  {
    var q, r := (y - 1) / 4, (y - 1) % 4;
    if r == 3 { assert y == 4 * (q + 1); } else { assert y == 4 * q + (r + 1); }
  }

  lemma Step100(y: int)
    ensures y / 100 - (y - 1) / 100 == (if y % 100 == 0 then 1 else 0)
  {
    var q, r := (y - 1) / 100, (y - 1) % 100;
    if r == 99 { assert y == 100 * (q + 1); } else { assert y == 100 * q + (r + 1); }
  }

  lemma Step400(y: int)
    ensures y / 400 - (y - 1) / 400 == (if y % 400 == 0 then 1 else 0)
  {
    var q, r := (y - 1) / 400, (y - 1) % 400;
    if r == 399 { assert y == 400 * (q + 1); } else { assert y == 400 * q + (r + 1); }
  }

  /** The leap days counted up to `y` exceed those up to `y - 1` by one
      exactly in a leap year. */
  lemma LeapStep(y: int)
    ensures y / 4 - (y - 1) / 4 - (y / 100 - (y - 1) / 100) + (y / 400 - (y - 1) / 400)
      == if IsLeap(y) then 1 else 0
  {
    Step4(y);
    Step100(y);
    Step400(y);
  }

  /** A year holds 365 days, 366 in a leap year. */
  lemma {:induction false} YearLength(y: int)
    requires y >= 1
    ensures DaysBeforeYear(y + 1) - DaysBeforeYear(y) == DaysBeforeMonth(y, 12) + 31
  {
    var leap := if IsLeap(y) then 1 else 0;
    LeapStep(y);
    var p := y - 1;
    assert DaysBeforeYear(y + 1) == y * 365 + y / 4 - y / 100 + y / 400;
    assert DaysBeforeYear(y) == p * 365 + p / 4 - p / 100 + p / 400;
    assert y * 365 == p * 365 + 365;
    assert DaysBeforeMonth(y, 12) == 334 + leap;
  }

  /** The (year, month, day) successor and the ordinal successor agree. */
  lemma NextDayOrdinal(d: Date)
    requires Valid(d)
    ensures ToOrdinal(NextDay(d)) == ToOrdinal(d) + 1
  {
    if d.day == DaysInMonth(d.year, d.month) && d.month == 12 {
      YearLength(d.year);
    }
  }

  /** Adding `n` days to the (year, month, day) view adds `n` to the ordinal. */
  lemma {:induction false} AddDaysOrdinal(d: Date, n: nat)
    requires Valid(d)
    ensures ToOrdinal(AddDays(d, n)) == ToOrdinal(d) + n
    decreases n
  {
    if n > 0 {
      NextDayOrdinal(d);
      AddDaysOrdinal(NextDay(d), n - 1);
    }
  }

  /** From the first of a month, the first `DaysInMonth` steps stay in the
      month and land on day `n + 1`. */
  lemma {:induction false} AddDaysWithinMonth(d: Date, n: nat)
    requires Valid(d) && d.day + n <= DaysInMonth(d.year, d.month)
    ensures AddDays(d, n) == Date(d.year, d.month, d.day + n)
    decreases n
  {
    if n > 0 {
      AddDaysWithinMonth(NextDay(d), n - 1);
    }
  }

  /** Stepping past the end of a month (by fewer than 28 further days)
      lands in another month. */
  lemma {:induction false} AddDaysPastMonth(d: Date, n: nat)
    requires Valid(d) && d.day + n > DaysInMonth(d.year, d.month)
    requires d.day + n <= DaysInMonth(d.year, d.month) + 28
    ensures AddDays(d, n).month != d.month
  {
    var k := DaysInMonth(d.year, d.month) - d.day;
    AddDaysWithinMonth(d, k);
    AddDaysSplit(d, k, n - k);
    var last := AddDays(d, k);
    var first := NextDay(last);
    assert first.day == 1 && first.month != d.month;
    AddDaysSplit(last, 1, n - k - 1);
    AddDaysWithinMonth(first, n - k - 1);
  }

  lemma {:induction false} AddDaysSplit(d: Date, a: nat, b: nat)
    requires Valid(d)
    ensures AddDays(d, a + b) == AddDays(AddDays(d, a), b)
    decreases a
  {
    if a > 0 {
      AddDaysSplit(NextDay(d), a - 1, b);
    }
  }
}

=== FILE: editable.dfy ===
/** `EditableText`: a one-line text field that is either unset (`None`,
    shown as a fallback) or holds a string, with a cursor between
    characters while it has focus. */
module Editable {
  import opened Wrappers

  datatype Editor = Editor(text: Option<string>, cursor: int, focused: bool)

  /** `self.text or ""`: the text being edited, empty while unset. */
  function Text(e: Editor): string {
    e.text.GetOr("")
  }

  /** The cursor bound every operation keeps. */
  predicate Valid(e: Editor) {
    0 <= e.cursor <= |Text(e)|
  }

  /** The constructor: the cursor starts after the text, without focus. */
  function New(text: Option<string>): (e: Editor)
    ensures Valid(e) && e.text == text && e.cursor == |Text(e)| && !e.focused
  {
    Editor(text, |text.GetOr("")|, false)
  }

  /** `resolve_text`: the text, or while unset, nothing when focused and the
      fallback when not. */
  function ResolveText(e: Editor, fallback: string): (s: string)
    ensures e.text.Some? ==> s == e.text.value
    ensures e.text.None? ==> (s == "" <==> e.focused || fallback == "")
    ensures e.text.None? && !e.focused ==> s == fallback
  {
    match e.text
    case Some(t) => t
    case None => if e.focused then "" else fallback
  }

  /** `add_cursor`: a focused field shows `|` at the cursor. */
  function AddCursor(e: Editor, s: string): (d: string)
    requires 0 <= e.cursor <= |s|
    ensures !e.focused ==> d == s
    ensures e.focused ==> |d| == |s| + 1 && d[e.cursor] == '|'
    ensures e.focused ==> d[..e.cursor] == s[..e.cursor] && d[e.cursor + 1..] == s[e.cursor..]
  {
    if e.focused then s[..e.cursor] + "|" + s[e.cursor..] else s
  }

  /** `update_text`: what the widget shows. */
  function Display(e: Editor, fallback: string): (d: string)
    requires Valid(e)
    ensures !e.focused ==> d == ResolveText(e, fallback)
    ensures e.focused ==> |d| == |Text(e)| + 1 && d[e.cursor] == '|'
    ensures e.focused ==> d[..e.cursor] + d[e.cursor + 1..] == Text(e)
  {
    var s := ResolveText(e, fallback);
    if e.focused then
      assert s == Text(e);
      var d := AddCursor(e, s);
      assert d[..e.cursor] + d[e.cursor + 1..] == s[..e.cursor] + s[e.cursor..];
      assert s[..e.cursor] + s[e.cursor..] == s;
      d
    else AddCursor(e, s)
  }

  function Home(e: Editor): (r: Editor)
    ensures r.cursor == 0 && r.text == e.text && r.focused == e.focused && Valid(r)
  {
    e.(cursor := 0)
  }

  function End(e: Editor): (r: Editor)
    requires Valid(e)
    ensures Valid(r) && r.text == e.text && r.focused == e.focused
    ensures e.text.None? ==> r == e
    ensures e.text.Some? ==> r.cursor == |e.text.value|
  {
    match e.text
    case None => e
    case Some(t) => e.(cursor := |t|)
  }

  /** Removes the character before the cursor. */
  function Backspace(e: Editor): (r: Editor)
    requires Valid(e)
    ensures Valid(r) && r.focused == e.focused
    ensures e.text.None? || e.cursor == 0 ==> r == e
    ensures e.text.Some? && e.cursor > 0 ==>
      r.cursor == e.cursor - 1 && r.text.Some? && |r.text.value| == |e.text.value| - 1
      && r.text.value[..r.cursor] == e.text.value[..r.cursor]
      && r.text.value[r.cursor..] == e.text.value[e.cursor..]
  {
    match e.text
    case None => e
    case Some(t) =>
      if e.cursor == 0 then e
      else Editor(Some(t[..e.cursor - 1] + t[e.cursor..]), e.cursor - 1, e.focused)
  }

  /** Removes the character at the cursor. */
  function Delete(e: Editor): (r: Editor)
    requires Valid(e)
    ensures Valid(r) && r.focused == e.focused && r.cursor == e.cursor
    ensures e.text.None? || e.cursor >= |e.text.value| ==> r == e
    ensures e.text.Some? && e.cursor < |e.text.value| ==>
      r.text.Some? && |r.text.value| == |e.text.value| - 1
      && r.text.value[..e.cursor] == e.text.value[..e.cursor]
      && r.text.value[e.cursor..] == e.text.value[e.cursor + 1..]
  {
    match e.text
    case None => e
    case Some(t) =>
      if e.cursor >= |t| then e
      else e.(text := Some(t[..e.cursor] + t[e.cursor + 1..]))
  }

  function Left(e: Editor): (r: Editor)
    requires Valid(e)
    ensures Valid(r) && r.text == e.text && r.focused == e.focused
    ensures r.cursor == if e.cursor == 0 then 0 else e.cursor - 1
  {
    if e.cursor == 0 then e else e.(cursor := e.cursor - 1)
  }

  function Right(e: Editor): (r: Editor)
    requires Valid(e)
    ensures Valid(r) && r.text == e.text && r.focused == e.focused
    ensures e.text.None? ==> r == e
    ensures e.text.Some? ==> r.cursor == if e.cursor < |e.text.value| then e.cursor + 1 else e.cursor
  {
    match e.text
    case None => e
    case Some(t) => if e.cursor >= |t| then e else e.(cursor := e.cursor + 1)
  }

  /** Ctrl-left: back one position onto a space, else back to the start of
      the word before the cursor. */
  method CtrlLeft(e: Editor) returns (r: Editor)
    requires Valid(e)
    ensures Valid(r) && r.text == e.text && r.focused == e.focused
    ensures e.text.None? || e.cursor == 0 ==> r == e
    ensures e.text.Some? && e.cursor > 0 ==> r.cursor < e.cursor
    ensures e.text.Some? && e.cursor > 0 && e.text.value[e.cursor - 1] == ' ' ==> r.cursor == e.cursor - 1
    ensures e.text.Some? && e.cursor > 0 && e.text.value[e.cursor - 1] != ' ' ==>
      (r.cursor == 0 || e.text.value[r.cursor - 1] == ' ')
      && forall k :: r.cursor <= k < e.cursor ==> e.text.value[k] != ' '
  {
    if e.text.None? || e.cursor == 0 {
      return e;
    }
    var t := e.text.value;
    if t[e.cursor - 1] == ' ' {
      return e.(cursor := e.cursor - 1);
    }
    var i := e.cursor - 1;
    while i >= 0
      invariant -1 <= i <= e.cursor - 1
      invariant forall k :: i < k < e.cursor ==> t[k] != ' '
    {
      if t[i] == ' ' {
        return e.(cursor := i + 1);
      }
      i := i - 1;
    }
    return e.(cursor := 0);
  }

  /** Ctrl-right: forward one position off a space, else forward to the
      next space or the end of the text. */
  method CtrlRight(e: Editor) returns (r: Editor)
    requires Valid(e)
    ensures Valid(r) && r.text == e.text && r.focused == e.focused
    ensures e.text.None? || e.cursor >= |e.text.value| ==> r == e
    ensures e.text.Some? && e.cursor < |e.text.value| ==> r.cursor > e.cursor
    ensures e.text.Some? && e.cursor < |e.text.value| && e.text.value[e.cursor] == ' ' ==> r.cursor == e.cursor + 1
    ensures e.text.Some? && e.cursor < |e.text.value| && e.text.value[e.cursor] != ' ' ==>
      (r.cursor == |e.text.value| || e.text.value[r.cursor] == ' ')
      && forall k :: e.cursor <= k < r.cursor ==> e.text.value[k] != ' '
  {
    if e.text.None? || e.cursor >= |e.text.value| {
      return e;
    }
    var t := e.text.value;
    if t[e.cursor] == ' ' {
      return e.(cursor := e.cursor + 1);
    }
    var i := e.cursor;
    while i < |t|
      invariant e.cursor <= i <= |t|
      invariant forall k :: e.cursor <= k < i ==> t[k] != ' '
    {
      if t[i] == ' ' {
        return e.(cursor := i);
      }
      i := i + 1;
    }
    return e.(cursor := |t|);
  }

  /** `on_key` for a printable character: insert it at the cursor, an
      unset text counting as empty. */
  function Insert(e: Editor, ch: char): (r: Editor)
    requires Valid(e)
    ensures Valid(r) && r.focused == e.focused && r.cursor == e.cursor + 1
    ensures r.text.Some? && |r.text.value| == |Text(e)| + 1 && r.text.value[e.cursor] == ch
    ensures r.text.value[..e.cursor] == Text(e)[..e.cursor] && r.text.value[e.cursor + 1..] == Text(e)[e.cursor..]
  {
    var t := Text(e);
    Editor(Some(t[..e.cursor] + [ch] + t[e.cursor..]), e.cursor + 1, e.focused)
  }

  /** `on_key`: keys without a printable character are ignored. */
  function OnKey(e: Editor, character: Option<char>, printable: bool): (r: Editor)
    requires Valid(e)
    ensures Valid(r)
    ensures character.None? || !printable ==> r == e
    ensures character.Some? && printable ==> r == Insert(e, character.value)
  {
    if character.None? || !printable then e else Insert(e, character.value)
  }

  /** Backspace undoes an insert; an unset text comes back as empty. */
  lemma InsertBackspace(e: Editor, ch: char)
    requires Valid(e)
    ensures Backspace(Insert(e, ch)) == Editor(Some(Text(e)), e.cursor, e.focused)
  {
    var t := Text(e);
    var ins := t[..e.cursor] + [ch] + t[e.cursor..];
    assert ins[..e.cursor] + ins[e.cursor + 1..] == t;
  }

  /** Delete after moving left undoes an insert as well. */
  lemma InsertLeftDelete(e: Editor, ch: char)
    requires Valid(e)
    ensures Delete(Left(Insert(e, ch))) == Editor(Some(Text(e)), e.cursor, e.focused)
  {
    var t := Text(e);
    var ins := t[..e.cursor] + [ch] + t[e.cursor..];
    assert ins[..e.cursor] + ins[e.cursor + 1..] == t;
  }

  /** `key_enter`: hand the text to the save callback, if any, and give up
      focus; `key_escape` only gives up focus. */
  function Enter(e: Editor, hasCallback: bool): (r: (Editor, Option<Option<string>>))
    ensures r.0 == e.(focused := false)
    ensures r.1.Some? <==> hasCallback
    ensures hasCallback ==> r.1.value == e.text
  {
    (e.(focused := false), if hasCallback then Some(e.text) else None)
  }

  function Escape(e: Editor): (r: Editor)
    ensures r.text == e.text && r.cursor == e.cursor && !r.focused
  {
    e.(focused := false)
  }
}

=== FILE: log_list.dfy ===
/** `LogList`: the paginated list of work-log cards. Its state is the next
    page's offset and whether the end was reached; the background worker
    is split into a `Launch` event, which captures the offset, and a
    `Deliver` event, which runs `_add_logs` with what the worker fetched. */
module LogList {
  import opened Wrappers
  import opened Logs
  import WorkLog
  import AutoLoad

  const PageLimit: nat := 20

  /** `only_active`: `None` lists everything, `False` hides running logs,
      `True` shows only the running log. */
  datatype Mode = AllLogs | ExcludeActive | OnlyActive

  /** `fetched` is every log of the pages accepted since the last reload,
      in order; `mounted` the cards on screen; `emptyMarker` whether the
      "No logs" class is set. */
  datatype State = State(offset: int, reachedEnd: bool, fetched: seq<Log>, mounted: seq<Log>, emptyMarker: bool)

  /** What the worker hands to `_add_logs`. */
  datatype Page = Page(offset: int, reachedEnd: bool, logs: seq<Log>)

  /** The logs that get a card: running logs are dropped when hiding them. */
  function Shown(mode: Mode, logs: seq<Log>): (r: seq<Log>)
    ensures mode != ExcludeActive ==> r == logs
    ensures |r| <= |logs|
    ensures forall l :: l in r <==> l in logs && (mode == ExcludeActive ==> !WorkLog.IsActive(l))
  {
    if |logs| == 0 then []
    else
      var init := Shown(mode, logs[..|logs| - 1]);
      var l := logs[|logs| - 1];
      assert logs == logs[..|logs| - 1] + [l];
      if mode == ExcludeActive && WorkLog.IsActive(l) then init else init + [l]
  }

  lemma {:induction false} ShownConcat(mode: Mode, a: seq<Log>, b: seq<Log>)
    ensures Shown(mode, a + b) == Shown(mode, a) + Shown(mode, b)
    decreases |b|
  {
    if |b| == 0 {
      assert a + b == a;
    } else {
      var b' := b[..|b| - 1];
      assert (a + b)[..|a + b| - 1] == a + b';
      assert b[..|b| - 1] == b';
      ShownConcat(mode, a, b');
    }
  }

  /** The list's invariant: the offset counts every accepted log, the
      cards are exactly the shown part of them, and the marker is set iff
      there is no card. */
  predicate Inv(mode: Mode, st: State) {
    st.offset == |st.fetched|
    && st.mounted == Shown(mode, st.fetched)
    && (st.emptyMarker <==> |st.mounted| == 0)
  }

  const Initial: State := State(0, false, [], [], true)

  lemma InitialInv(mode: Mode)
    ensures Inv(mode, Initial)
  {
  }

  /** `load_more_logs` at launch: nothing when the end was reached, else a
      fetch of the page at the captured offset. */
  function Launch(st: State): (req: Option<int>)
    ensures req.None? <==> st.reachedEnd
    ensures req.Some? ==> req.value == st.offset
  {
    if st.reachedEnd then None else Some(st.offset)
  }

  /** `load_more_logs` after the fetch: in only-active mode the page is the
      running log if there is one and the end is always reached; otherwise
      the page is what `list_all` returned for at most `PageLimit` logs and
      the end is reached iff it came back short. */
  function Complete(mode: Mode, offset: int, listed: seq<Log>, active: Option<Log>): (p: Page)
    ensures p.offset == offset
    ensures mode == OnlyActive ==> p.reachedEnd && |p.logs| <= 1 && (|p.logs| == 1 <==> active.Some?)
    ensures mode != OnlyActive ==> p.logs == listed && (p.reachedEnd <==> |listed| < PageLimit)
  {
    if mode == OnlyActive then
      Page(offset, true, match active case None => [] case Some(l) => [l])
    else Page(offset, |listed| < PageLimit, listed)
  }

  /** `_add_logs`. */
  function Deliver(mode: Mode, st: State, p: Page): (r: State)
    ensures p.offset != st.offset ==> r == st
    ensures p.offset == st.offset ==>
      r.offset == st.offset + |p.logs| && r.reachedEnd == p.reachedEnd && r.fetched == st.fetched + p.logs
    ensures p.offset == st.offset ==> r.mounted == st.mounted + Shown(mode, p.logs)
    ensures p.offset == st.offset ==> (r.emptyMarker <==> st.emptyMarker && |Shown(mode, p.logs)| == 0)
    ensures r.offset >= st.offset
  {
    if p.offset != st.offset then st
    else
      var cards := Shown(mode, p.logs);
      State(st.offset + |p.logs|, p.reachedEnd, st.fetched + p.logs, st.mounted + cards,
            st.emptyMarker && |cards| == 0)
  }

  /** `reload_logs`: back to the first page with no card, then a launch. */
  function Reload(st: State): (r: (State, Option<int>))
    ensures r.0 == Initial && r.1 == Some(0)
  {
    var reset := State(0, false, [], [], true);
    (reset, Launch(reset))
  }

  /** `LogList.watch_scroll_y`: launch when the edge is crossed. */
  function Scroll(st: State, before: real, after: real, maxScroll: real): (req: Option<int>)
    ensures req.Some? <==> AutoLoad.EdgeCrossed(before, after, maxScroll) && !st.reachedEnd
    ensures req.Some? ==> req.value == st.offset
  {
    if AutoLoad.EdgeCrossed(before, after, maxScroll) then Launch(st) else None
  }

  /** Delivering a page, accepted or not, keeps the invariant. */
  lemma DeliverInv(mode: Mode, st: State, p: Page)
    requires Inv(mode, st)
    ensures Inv(mode, Deliver(mode, st, p))
  {
    if p.offset == st.offset {
      ShownConcat(mode, st.fetched, p.logs);
    }
  }

  /** A result fetched before a reload at a non-zero offset is dropped. */
  lemma StaleResultDropped(mode: Mode, st: State, listed: seq<Log>, active: Option<Log>)
    requires Launch(st) == Some(40)
    ensures var reset := Reload(st).0;
      Deliver(mode, reset, Complete(mode, 40, listed, active)) == reset
  {
  }

  /** Staleness is judged by offset only: a first-page result fetched
      before a reload is accepted by the reloaded list. */
  lemma FirstPageAcceptedAfterReload(mode: Mode, st: State, listed: seq<Log>, active: Option<Log>)
    requires Launch(st) == Some(0)
    ensures var reset := Reload(st).0;
      var p := Complete(mode, 0, listed, active);
      Deliver(mode, reset, p).offset == |p.logs| && Deliver(mode, reset, p).fetched == p.logs
  {
  }

  /** The page `list_all` returns from a server holding `all`. */
  function ServerPage(all: seq<Log>, offset: nat): (page: seq<Log>)
    ensures |page| <= PageLimit
    ensures offset + |page| <= |all| || page == []
  {
    ListPage(all, offset, PageLimit)
  }

  /** What the list has loaded is a prefix of the server's logs, and
      everything once the end is reached. */
  predicate Loaded(st: State, all: seq<Log>) {
    0 <= st.offset <= |all| && st.fetched == all[..st.offset] && (st.reachedEnd ==> st.offset == |all|)
  }

  /** Against a server whose listing does not change, launching and
      delivering one page keeps the loaded logs a prefix of the listing
      and advances by exactly the page. */
  lemma {:induction false} HonestPageLoaded(mode: Mode, st: State, all: seq<Log>)
    requires mode != OnlyActive
    requires Inv(mode, st) && Loaded(st, all) && Launch(st).Some?
    ensures var p := Complete(mode, st.offset, ServerPage(all, st.offset), None);
      Loaded(Deliver(mode, st, p), all)
      && Deliver(mode, st, p).offset == st.offset + |ServerPage(all, st.offset)|
  {
    var page := ServerPage(all, st.offset);
    var n := st.offset + |page|;
    assert all[..st.offset] + page == all[..n] by {
      if st.offset < |all| {
        assert page == all[st.offset..n];
      }
    }
    if |page| < PageLimit {
      assert n == |all|;
    }
  }

  /** Repeating launch-and-deliver against an unchanging server from the
      first page loads the whole listing. */
  function LoadAll(mode: Mode, st: State, all: seq<Log>): (r: State)
    requires mode != OnlyActive && Inv(mode, st) && Loaded(st, all)
    ensures Inv(mode, r) && Loaded(r, all) && r.reachedEnd
    ensures r.fetched == all && r.mounted == Shown(mode, all)
    decreases |all| - st.offset, !st.reachedEnd
  {
    if st.reachedEnd then st
    else
      var p := Complete(mode, st.offset, ServerPage(all, st.offset), None);
      HonestPageLoaded(mode, st, all);
      DeliverInv(mode, st, p);
      LoadAll(mode, Deliver(mode, st, p), all)
  }
}

=== FILE: logs.dfy ===
/** The shape of the work logs the API hands to the terminal UI, reduced to
    the fields the modelled code reads. Time-stamps are real seconds (see
    `Dates.DaySeconds`). */
module Logs {
  import opened Wrappers

  /** One record of a log; `end` is `None` while the record is running. */
  datatype Record = Record(start: real, end: Option<real>)

  datatype Log = Log(name: string, description: Option<string>, stopped: bool, records: seq<Record>)

  /** A record's end, with the caller's `now` standing in for a running record. */
  function EndOr(r: Record, now: real): real {
    r.end.GetOr(now)
  }

  /** All records of the logs, log by log, in order. */
  function AllRecords(logs: seq<Log>): (rs: seq<Record>)
    ensures |logs| == 0 ==> rs == []
  {
    if |logs| == 0 then [] else AllRecords(logs[..|logs| - 1]) + logs[|logs| - 1].records
  }

  /** The page the log-listing endpoint returns from a server holding `all`
      (in its order), for `offset` and `limit`. */
  function ListPage(all: seq<Log>, offset: nat, limit: nat): (page: seq<Log>)
    ensures |page| <= limit
    ensures page == [] <==> offset >= |all| || limit == 0
    ensures page != [] ==> offset + |page| <= |all| && page == all[offset..offset + |page|]
    ensures |page| < limit ==> offset + |page| >= |all|
  {
    if offset >= |all| then []
    else if |all| - offset < limit then all[offset..]
    else all[offset..offset + limit]
  }
}

=== FILE: py_num.dfy ===
/** Python's numeric conversions on floats, as the renderers use them. */
module PyNum {
  /** `int(x)`: truncation toward zero, the floor for non-negative `x` and
      the ceiling for negative `x`. */
  function Trunc(x: real): (n: int)
    ensures 0.0 <= x ==> n == x.Floor
    ensures x < 0.0 ==> n <= 0 && x <= n as real < x + 1.0
  {
    if x >= 0.0 then x.Floor else -((-x).Floor)
  }

  /** Truncation is symmetric about zero: `int(-x) == -int(x)`. */
  lemma TruncOdd(x: real)
    ensures Trunc(-x) == -Trunc(x)
  {
  }

  /** `math.ceil(x)`: the least integer not below `x`. */
  function Ceil(x: real): (c: int)
    ensures x <= c as real < x + 1.0
  {
    -((-x).Floor)
  }

  /** `x % 1` on a float: the floor remainder, never negative, and `x`
      minus it is a whole number. */
  function Mod1(x: real): (f: real)
    ensures 0.0 <= f < 1.0
    ensures (x - f).Floor as real == x - f
  {
    x - x.Floor as real
  }

  /** Any split of `x` into a whole part `k` and a fraction in [0, 1) is the
      one `% 1` computes: the fraction is `x % 1` and `k` is its floor. */
  lemma Mod1Unique(x: real, k: int, g: real)
    requires 0.0 <= g < 1.0 && x == k as real + g
    ensures Mod1(x) == g && x.Floor == k
  {
  }
}

=== FILE: range_bar.dfy ===
/** The one-line activity bar of a work log: half-cell resolution ranges
    accumulated per character cell in a four-state lattice, then drawn with
    a glyph chosen from each cell and its neighbours. */
module RangeBar {
  import opened Wrappers
  import opened PyNum

  /** `BarCS`: nothing, the right half (`Left` is drawn `╺`), the left half
      (`Right` is drawn `╸`), or the whole cell. */
  datatype BarCS = Empty | Full | Left | Right

  /** The lattice order `Empty < Left, Right < Full`. */
  predicate Leq(a: BarCS, b: BarCS) {
    a == Empty || b == Full || a == b
  }

  /** `BarCS.merge`: the least upper bound of the two states. */
  function Merge(a: BarCS, b: BarCS): (r: BarCS)
    ensures Leq(a, r) && Leq(b, r)
    ensures forall c :: Leq(a, c) && Leq(b, c) ==> Leq(r, c)
  {
    if a == Empty then b
    else if a == Full then a
    else if a == Left then (if b == Right then Full else if b == Full then b else a)
    else (if b == Left then Full else if b == Full then b else a)
  }

  lemma LeqPartialOrder(a: BarCS, b: BarCS, c: BarCS)
    ensures Leq(a, a)
    ensures Leq(a, b) && Leq(b, a) ==> a == b
    ensures Leq(a, b) && Leq(b, c) ==> Leq(a, c)
  {
  }

  lemma MergeLaws(a: BarCS, b: BarCS, c: BarCS)
    ensures Merge(a, b) == Merge(b, a)
    ensures Merge(Merge(a, b), c) == Merge(a, Merge(b, c))
    ensures Merge(a, a) == a
    ensures Merge(Empty, a) == a && Merge(a, Empty) == a
    ensures Merge(Full, a) == Full && Merge(a, Full) == Full
    ensures Merge(Left, Right) == Full
  {
  }

  // ---------------------------------------------------------------------
  // Python indexing and the scaled ends
  // ---------------------------------------------------------------------

  /** Python's `content[i]`: negative indexes count from the end; anything
      else outside the list raises `IndexError`. */
  function PyIndex(i: int, n: nat): (r: Option<nat>)
    ensures r.Some? ==> r.value < n && (r.value == i || r.value == i + n)
    ensures r.None? <==> i >= n || i < -(n as int)
  {
    if 0 <= i < n then Some(i) else if -(n as int) <= i < 0 then Some(i + n) else None
  }

  datatype BarError = IndexError | UnhandledBarState

  function Max(a: real, b: real): real { if a >= b then a else b }
  function Min(a: real, b: real): real { if a <= b then a else b }

  /** The scaled and clamped ends of one range on a bar of `w` cells. */
  function ScaledStart(r: (real, real), w: nat): (x: real)
    ensures 0.0 <= x
  {
    Max(r.0 * w as real, 0.0)
  }

  function ScaledEnd(r: (real, real), w: nat): (x: real)
    ensures x <= w as real
  {
    Min(r.1 * w as real, w as real)
  }

  /** The first cell that `range(start, end)` fills. */
  function FullFrom(r: (real, real), w: nat): (n: nat) {
    var s := ScaledStart(r, w);
    Trunc(s) + (if Mod1(s) >= 0.5 then 1 else 0)
  }

  /** The state one range adds to cell `i`, joined from the three writes of
      the loop body: `Left` at a start with at least half a cell of
      underflow, `Right` one past an end with at least half a cell of
      overflow, `Full` on every cell in between. */
  function Contribution(r: (real, real), w: nat, i: int): BarCS {
    var s := ScaledStart(r, w);
    var e := ScaledEnd(r, w);
    var left := if Mod1(s) >= 0.5 && PyIndex(Trunc(s), w) == Some(i) then Left else Empty;
    var right := if Mod1(e) >= 0.5 && PyIndex(Trunc(e) + 1, w) == Some(i) then Right else Empty;
    var full := if FullFrom(r, w) <= i < Trunc(e) then Full else Empty;
    Merge(Merge(left, right), full)
  }

  /** `content[i] = content[i].merge(state)` at a Python index. */
  function MergeAt(content: seq<BarCS>, i: int, state: BarCS): (r: Result<seq<BarCS>, BarError>)
    ensures r.Failure? <==> PyIndex(i, |content|).None?
    ensures r.Success? ==> |r.value| == |content|
    ensures r.Success? ==> forall j :: 0 <= j < |content| ==>
      r.value[j] == if PyIndex(i, |content|) == Some(j) then Merge(content[j], state) else content[j]
  {
    match PyIndex(i, |content|)
    case None => Failure(IndexError)
    case Some(k) => Success(content[k := Merge(content[k], state)])
  }

  /** `for i in range(lo, hi): content[i] = content[i].merge(BarCS.FULL)` */
  function FillFull(content: seq<BarCS>, lo: int, hi: int): (r: seq<BarCS>)
    requires 0 <= lo && hi <= |content|
    ensures |r| == |content|
    ensures forall j :: 0 <= j < |content| ==>
      r[j] == if lo <= j < hi then Merge(content[j], Full) else content[j]
    decreases hi - lo
  {
    if lo >= hi then content else FillFull(content[lo := Merge(content[lo], Full)], lo + 1, hi)
  }

  /** One iteration of the `for highlight_range in self.highlighted_ranges`
      loop, in the source's order of writes. */
  function ApplyRange(content: seq<BarCS>, r: (real, real)): (res: Result<seq<BarCS>, BarError>)
    ensures res.Failure? <==>
      (Mod1(ScaledStart(r, |content|)) >= 0.5 && PyIndex(Trunc(ScaledStart(r, |content|)), |content|).None?)
      || (Mod1(ScaledEnd(r, |content|)) >= 0.5 && PyIndex(Trunc(ScaledEnd(r, |content|)) + 1, |content|).None?)
    ensures res.Success? ==> |res.value| == |content|
  {
    var w := |content|;
    var s := ScaledStart(r, w);
    var e := ScaledEnd(r, w);
    var afterLeft := if Mod1(s) >= 0.5 then MergeAt(content, Trunc(s), Left) else Success(content);
    match afterLeft
    case Failure(err) => Failure(err)
    case Success(c1) =>
      var afterRight := if Mod1(e) >= 0.5 then MergeAt(c1, Trunc(e) + 1, Right) else Success(c1);
      match afterRight
      case Failure(err) => Failure(err)
      case Success(c2) =>
        Success(FillFull(c2, FullFrom(r, w), Trunc(e)))
  }

  /** A successful pass over one range joins each cell with exactly that
      range's contribution: cells only ever grow in the lattice. */
  lemma ApplyRangeCells(content: seq<BarCS>, r: (real, real), i: int)
    requires ApplyRange(content, r).Success? && 0 <= i < |content|
    ensures ApplyRange(content, r).value[i] == Merge(content[i], Contribution(r, |content|, i))
    ensures Leq(content[i], ApplyRange(content, r).value[i])
  {
    var w := |content|;
    var s := ScaledStart(r, w);
    var e := ScaledEnd(r, w);
    var left := if Mod1(s) >= 0.5 && PyIndex(Trunc(s), w) == Some(i) then Left else Empty;
    var right := if Mod1(e) >= 0.5 && PyIndex(Trunc(e) + 1, w) == Some(i) then Right else Empty;
    var full := if FullFrom(r, w) <= i < Trunc(e) then Full else Empty;
    var c1 := if Mod1(s) >= 0.5 then MergeAt(content, Trunc(s), Left).value else content;
    assert c1[i] == Merge(content[i], left);
    var c2 := if Mod1(e) >= 0.5 then MergeAt(c1, Trunc(e) + 1, Right).value else c1;
    assert c2[i] == Merge(c1[i], right);
    assert ApplyRange(content, r).value[i] == Merge(c2[i], full);
    assert Contribution(r, w, i) == Merge(Merge(left, right), full);
    MergeLaws(content[i], left, right);
    MergeLaws(content[i], Merge(left, right), full);
    MergeUpper(content[i], Contribution(r, w, i));
  }

  lemma MergeUpper(a: BarCS, b: BarCS)
    ensures Leq(a, Merge(a, b))
  {
  }

  /** The cell states after all ranges of the bar, in order; the first
      failing write aborts the whole render. */
  function Accumulate(ranges: seq<(real, real)>, w: nat): (res: Result<seq<BarCS>, BarError>)
    ensures res.Success? ==> |res.value| == w
  {
    if |ranges| == 0 then Success(seq(w, _ => Empty))
    else
      match Accumulate(ranges[..|ranges| - 1], w)
      case Failure(err) => Failure(err)
      case Success(c) => ApplyRange(c, ranges[|ranges| - 1])
  }

  /** The join of all ranges' contributions to cell `i`. */
  function CellJoin(ranges: seq<(real, real)>, w: nat, i: int): BarCS {
    if |ranges| == 0 then Empty
    else Merge(CellJoin(ranges[..|ranges| - 1], w, i), Contribution(ranges[|ranges| - 1], w, i))
  }

  /** A cell's final state is the join of every range's contribution to it,
      so no range's coverage of a cell is ever lost. */
  lemma {:induction false} AccumulateCells(ranges: seq<(real, real)>, w: nat, i: int)
    requires Accumulate(ranges, w).Success? && 0 <= i < w
    ensures Accumulate(ranges, w).value[i] == CellJoin(ranges, w, i)
    ensures forall k :: 0 <= k < |ranges| ==>
      Leq(Contribution(ranges[k], w, i), Accumulate(ranges, w).value[i])
  {
    if |ranges| > 0 {
      var init := ranges[..|ranges| - 1];
      AccumulateCells(init, w, i);
      var c := Accumulate(init, w).value;
      ApplyRangeCells(c, ranges[|ranges| - 1], i);
      forall k | 0 <= k < |ranges|
        ensures Leq(Contribution(ranges[k], w, i), Accumulate(ranges, w).value[i])
      {
        if k < |ranges| - 1 {
          assert init[k] == ranges[k];
          LeqPartialOrder(Contribution(ranges[k], w, i), c[i], Accumulate(ranges, w).value[i]);
        }
      }
    }
  }

  /** A start inside the bar never writes outside it. */
  lemma StartWithinBar(s: real, w: nat)
    requires 0.0 <= s <= w as real
    ensures Mod1(s) >= 0.5 ==> PyIndex(Trunc(s), w).Some?
  {
  }

  /** An end inside the bar writes outside it exactly when it overflows
      into the last cell. */
  lemma EndPastBar(e: real, w: nat)
    requires 0.0 <= e <= w as real
    ensures (Mod1(e) >= 0.5 && PyIndex(Trunc(e) + 1, w).None?) <==>
      (Mod1(e) >= 0.5 && Trunc(e) + 1 == w)
  {
  }

  /** A fraction of the width stays within the width. */
  lemma ScaleBounds(f: real, x: real)
    requires 0.0 <= f <= 1.0 && 0.0 <= x
    ensures 0.0 <= f * x <= x
  {
    NonNegProduct(f, x);
    NonNegProduct(1.0 - f, x);
    assert (1.0 - f) * x == x - f * x;
  }

  lemma NonNegProduct(a: real, b: real)
    requires 0.0 <= a && 0.0 <= b
    ensures 0.0 <= a * b
  {
  }

  /** The ends of a range inside `[0, 1]` need no clamping: they scale to
      `start * width` and `end * width`. */
  lemma ScaledUnit(r: (real, real), w: nat)
    requires 0.0 <= r.0 <= 1.0 && 0.0 <= r.1 <= 1.0
    ensures ScaledStart(r, w) == r.0 * w as real && ScaledEnd(r, w) == r.1 * w as real
  {
    ScaleBounds(r.0, w as real);
    ScaleBounds(r.1, w as real);
  }

  /** ... and so both scaled ends lie within the bar. */
  lemma ScaledUnitInBar(r: (real, real), w: nat)
    requires 0.0 <= r.0 <= 1.0 && 0.0 <= r.1 <= 1.0
    ensures ScaledStart(r, w) <= w as real && 0.0 <= ScaledEnd(r, w)
  {
    ScaledUnit(r, w);
    ScaleBounds(r.0, w as real);
    ScaleBounds(r.1, w as real);
  }

  /** For a range inside `[0, 1]` the only write that can fall off the bar
      is the `Right` one past an end that overflows into the last cell:
      `IndexError` exactly when `int(end * width) + 1 == width`. */
  lemma UnitRangeIndexError(content: seq<BarCS>, r: (real, real))
    requires 0.0 <= r.0 <= 1.0 && 0.0 <= r.1 <= 1.0
    ensures ApplyRange(content, r).Failure? <==>
      Mod1(ScaledEnd(r, |content|)) >= 0.5 && Trunc(ScaledEnd(r, |content|)) + 1 == |content|
  {
    ScaledUnitInBar(r, |content|);
    InBarIndexError(content, r);
  }

  /** A range whose scaled ends lie inside the bar fails only on the
      `Right` write past an end that overflows into the last cell. */
  lemma InBarIndexError(content: seq<BarCS>, r: (real, real))
    requires ScaledStart(r, |content|) <= |content| as real && 0.0 <= ScaledEnd(r, |content|)
    ensures ApplyRange(content, r).Failure? <==>
      Mod1(ScaledEnd(r, |content|)) >= 0.5 && Trunc(ScaledEnd(r, |content|)) + 1 == |content|
  {
    var w := |content|;
    var s := ScaledStart(r, w);
    var e := ScaledEnd(r, w);
    StartWithinBar(s, w);
    EndPastBar(e, w);
  }

  // ---------------------------------------------------------------------
  // Glyphs
  // ---------------------------------------------------------------------

  datatype BarStyle = Highlight | Background

  datatype BarGlyph = BarGlyph(ch: char, style: BarStyle)

  /** The glyph of an empty cell from whether the previous cell reaches its
      right edge (`Left` or `Full`) and the next cell reaches its left edge
      (`Right` or `Full`): a bar, a half bar away from the side that is
      covered, or a space where both sides are. */
  function EmptyGlyph(prevReaches: bool, nextReaches: bool): (g: char)
    ensures g == '━' <==> !prevReaches && !nextReaches
    ensures g == '╺' <==> prevReaches && !nextReaches
    ensures g == '╸' <==> !prevReaches && nextReaches
    ensures g == ' ' <==> prevReaches && nextReaches
  {
    if !prevReaches && !nextReaches then '━'
    else if prevReaches && !nextReaches then '╺'
    else if !prevReaches && nextReaches then '╸'
    else ' '
  }

  /** The `match (c_prev, c_curr, c_next)` table of `__rich_console__`. */
  function CellGlyph(prev: Option<BarCS>, curr: BarCS, next: Option<BarCS>): (r: Result<BarGlyph, BarError>)
    ensures curr != Empty ==>
      r == Success(BarGlyph(if curr == Left then '╺' else if curr == Right then '╸' else '━', Highlight))
    ensures curr == Empty && (prev.Some? || next.Some?) ==>
      r == Success(BarGlyph(
        EmptyGlyph(prev == Some(Left) || prev == Some(Full), next == Some(Right) || next == Some(Full)),
        Background))
    ensures curr == Empty && prev.None? && next.None? ==> r == Failure(UnhandledBarState)
  {
    match (prev, curr, next)
    case (Some(Empty), Empty, Some(Empty)) | (Some(Empty), Empty, Some(Left))
      | (Some(Right), Empty, Some(Empty)) | (Some(Right), Empty, Some(Left))
      | (Some(Empty), Empty, None) | (Some(Right), Empty, None)
      | (None, Empty, Some(Empty)) | (None, Empty, Some(Left)) =>
      Success(BarGlyph('━', Background))
    case (Some(Left), Empty, Some(Empty)) | (Some(Left), Empty, Some(Left))
      | (Some(Full), Empty, Some(Empty)) | (Some(Full), Empty, Some(Left))
      | (Some(Left), Empty, None) | (Some(Full), Empty, None) =>
      Success(BarGlyph('╺', Background))
    case (Some(Empty), Empty, Some(Right)) | (Some(Empty), Empty, Some(Full))
      | (Some(Right), Empty, Some(Right)) | (Some(Right), Empty, Some(Full))
      | (None, Empty, Some(Right)) | (None, Empty, Some(Full)) =>
      Success(BarGlyph('╸', Background))
    case (Some(Left), Empty, Some(Right)) | (Some(Left), Empty, Some(Full))
      | (Some(Full), Empty, Some(Right)) | (Some(Full), Empty, Some(Full)) =>
      Success(BarGlyph(' ', Background))
    case (_, Left, _) => Success(BarGlyph('╺', Highlight))
    case (_, Right, _) => Success(BarGlyph('╸', Highlight))
    case (_, Full, _) => Success(BarGlyph('━', Highlight))
    case _ => Failure(UnhandledBarState)
  }

  /** The neighbours of cell `i`, `None` beyond either end. */
  function Prev(content: seq<BarCS>, i: int): Option<BarCS>
    requires 0 <= i < |content|
  {
    if i > 0 then Some(content[i - 1]) else None
  }

  function Next(content: seq<BarCS>, i: int): Option<BarCS>
    requires 0 <= i < |content|
  {
    if i < |content| - 1 then Some(content[i + 1]) else None
  }

  /** The glyphs of the first `n` cells; the first unhandled cell aborts. */
  function Glyphs(content: seq<BarCS>, n: nat): (r: Result<seq<BarGlyph>, BarError>)
    requires n <= |content|
    ensures r.Success? ==> |r.value| == n
    ensures r.Success? ==> forall i :: 0 <= i < n ==>
      CellGlyph(Prev(content, i), content[i], Next(content, i)) == Success(r.value[i])
    ensures r.Failure? <==> exists i :: 0 <= i < n && CellGlyph(Prev(content, i), content[i], Next(content, i)).Failure?
  {
    if n == 0 then Success([])
    else
      match Glyphs(content, n - 1)
      case Failure(err) => Failure(err)
      case Success(gs) =>
        match CellGlyph(Prev(content, n - 1), content[n - 1], Next(content, n - 1))
        case Failure(err) => Failure(err)
        case Success(g) => Success(gs + [g])
  }

  /** `RangeBar.__rich_console__`: one glyph per cell of a `width`-cell bar. */
  function RenderBar(ranges: seq<(real, real)>, width: nat): (r: Result<seq<BarGlyph>, BarError>)
    ensures r.Success? ==> |r.value| == width
    ensures Accumulate(ranges, width).Failure? ==> r.Failure?
    ensures width >= 2 && Accumulate(ranges, width).Success? ==> r.Success?
    ensures width == 1 && Accumulate(ranges, width).Success? ==>
      (r.Failure? <==> Accumulate(ranges, width).value[0] == Empty)
    // Each glyph is picked from its accumulated cell and that cell's neighbours.
    ensures r.Success? ==>
      Accumulate(ranges, width).Success? &&
      var c := Accumulate(ranges, width).value;
      forall i :: 0 <= i < width ==> CellGlyph(Prev(c, i), c[i], Next(c, i)) == Success(r.value[i])
  {
    match Accumulate(ranges, width)
    case Failure(err) => Failure(err)
    case Success(content) =>
      assert width >= 2 ==> forall i :: 0 <= i < width ==> Prev(content, i).Some? || Next(content, i).Some?;
      Glyphs(content, width)
  }
}

=== FILE: report_command.dfy ===
/** The `report` command: fetch every log page by page, add the hours of
    each closed record to the day it started on, and print one line per day
    from the first to the last such day, then the total. Days are day
    ordinals (see `Dates`); the ISO text of the printed dates is left to
    `strftime`. */
module ReportCommand {
  import opened Wrappers
  import opened Logs
  import Dates

  /** `list_all`'s default `limit`. */
  const PageSize: nat := 100

  const HourSeconds: real := 3600.0

  /** The paging loop: pages are requested from offset 0, each at the
      previous offset plus the previous page's length, until one comes back
      empty. `offsets` lists the requested offsets in order. */
  method FetchAll(all: seq<Log>) returns (logs: seq<Log>, offsets: seq<nat>)
    ensures logs == all
    ensures |offsets| > 0 && offsets[0] == 0
    ensures forall k :: 0 <= k < |offsets| - 1 ==>
      ListPage(all, offsets[k], PageSize) != []
      && offsets[k + 1] == offsets[k] + |ListPage(all, offsets[k], PageSize)|
    ensures ListPage(all, offsets[|offsets| - 1], PageSize) == []
  {
    var offset: nat := 0;
    logs := [];
    offsets := [0];
    var page := ListPage(all, offset, PageSize);
    while |page| != 0
      invariant offset <= |all| && logs == all[..offset]
      invariant page == ListPage(all, offset, PageSize)
      invariant |offsets| > 0 && offsets[0] == 0 && offsets[|offsets| - 1] == offset
      invariant forall k :: 0 <= k < |offsets| - 1 ==>
        ListPage(all, offsets[k], PageSize) != []
        && offsets[k + 1] == offsets[k] + |ListPage(all, offsets[k], PageSize)|
      decreases |all| - offset
    {
      assert all[..offset] + page == all[..offset + |page|];
      logs := logs + page;
      offset := offset + |page|;
      offsets := offsets + [offset];
      page := ListPage(all, offset, PageSize);
    }
    assert logs == all;
  }

  /** `start.date()`: the ordinal of the day the time-stamp falls in. */
  function StartDay(t: real): (d: int)
    ensures Dates.DaySince(d) <= t < Dates.DaySince(d) + Dates.DaySeconds
  {
    var d := (t / Dates.DaySeconds).Floor;
    assert d as real <= t / Dates.DaySeconds < d as real + 1.0;
    d
  }

  /** The hours of a closed record. */
  function RecordHours(r: Record): real
    requires r.end.Some?
  {
    (r.end.value - r.start) / HourSeconds
  }

  /** A closed record started on day `d`. */
  predicate OnDay(r: Record, d: int) {
    r.end.Some? && StartDay(r.start) == d
  }

  predicate HasDay(recs: seq<Record>, d: int) {
    exists i :: 0 <= i < |recs| && OnDay(recs[i], d)
  }

  /** The hours of the closed records that started on day `d`. */
  function DayHours(recs: seq<Record>, d: int): real {
    if |recs| == 0 then 0.0
    else
      var r := recs[|recs| - 1];
      DayHours(recs[..|recs| - 1], d) + (if OnDay(r, d) then RecordHours(r) else 0.0)
  }

  /** The hours of all closed records. */
  function TotalHours(recs: seq<Record>): real {
    if |recs| == 0 then 0.0
    else
      var r := recs[|recs| - 1];
      TotalHours(recs[..|recs| - 1]) + (if r.end.Some? then RecordHours(r) else 0.0)
  }

  /** A day no closed record started on has no hours. */
  lemma {:induction false} NoDayNoHours(recs: seq<Record>, d: int)
    requires !HasDay(recs, d)
    ensures DayHours(recs, d) == 0.0
  {
    if |recs| > 0 {
      var init := recs[..|recs| - 1];
      NoDayNoHours(init, d);
    }
  }

  /** The `dates` dictionary and `total_duration` after the records: open
      records are skipped, a closed one adds its hours to the entry of its
      start day (creating it) and to the total. */
  function Bucket(recs: seq<Record>): (r: (map<int, real>, real))
    ensures forall d :: d in r.0 <==> HasDay(recs, d)
    ensures forall d :: d in r.0 ==> r.0[d] == DayHours(recs, d)
    ensures r.1 == TotalHours(recs)
  {
    if |recs| == 0 then (map[], 0.0)
    else
      var init := recs[..|recs| - 1];
      var prev := Bucket(init);
      var m := prev.0;
      var rec := recs[|recs| - 1];
      assert forall d :: HasDay(recs, d) <==> HasDay(init, d) || OnDay(rec, d) by {
        forall d | HasDay(recs, d) ensures HasDay(init, d) || OnDay(rec, d) {
          var i :| 0 <= i < |recs| && OnDay(recs[i], d);
          if i < |init| { assert OnDay(init[i], d); }
        }
        forall d | HasDay(init, d) ensures HasDay(recs, d) {
          var i :| 0 <= i < |init| && OnDay(init[i], d);
          assert OnDay(recs[i], d);
        }
      }
      if rec.end.None? then prev
      else
        var d := StartDay(rec.start);
        var h := RecordHours(rec);
        var before := if d in m then m[d] else 0.0;
        assert d !in m ==> DayHours(init, d) == 0.0 by {
          if d !in m { NoDayNoHours(init, d); }
        }
        (m[d := before + h], prev.1 + h)
  }

  /** The earliest start day of a closed record (`min(dates.keys())`). */
  function MinDay(recs: seq<Record>): (r: Option<int>)
    ensures r.None? <==> forall i :: 0 <= i < |recs| ==> recs[i].end.None?
    ensures r.Some? ==> HasDay(recs, r.value)
    ensures r.Some? ==> forall i :: 0 <= i < |recs| && recs[i].end.Some? ==> r.value <= StartDay(recs[i].start)
  {
    if |recs| == 0 then None
    else
      var init := recs[..|recs| - 1];
      var rec := recs[|recs| - 1];
      var prev := MinDay(init);
      assert forall i :: 0 <= i < |init| ==> init[i] == recs[i];
      if rec.end.None? then prev
      else
        var d := StartDay(rec.start);
        assert OnDay(recs[|recs| - 1], d);
        if prev.Some? && prev.value <= d then prev else Some(d)
  }

  /** The latest start day of a closed record (`max(dates.keys())`). */
  function MaxDay(recs: seq<Record>): (r: Option<int>)
    ensures r.None? <==> forall i :: 0 <= i < |recs| ==> recs[i].end.None?
    ensures r.Some? ==> HasDay(recs, r.value)
    ensures r.Some? ==> forall i :: 0 <= i < |recs| && recs[i].end.Some? ==> StartDay(recs[i].start) <= r.value
  {
    if |recs| == 0 then None
    else
      var init := recs[..|recs| - 1];
      var rec := recs[|recs| - 1];
      var prev := MaxDay(init);
      assert forall i :: 0 <= i < |init| ==> init[i] == recs[i];
      if rec.end.None? then prev
      else
        var d := StartDay(rec.start);
        assert OnDay(recs[|recs| - 1], d);
        if prev.Some? && prev.value >= d then prev else Some(d)
  }

  /** The printing loop: one line per day from `lo` to `hi`, 0.0 for a day
      without an entry. */
  method Lines(m: map<int, real>, lo: int, hi: int) returns (lines: seq<(int, real)>)
    requires lo <= hi
    ensures |lines| == hi - lo + 1
    ensures forall i :: 0 <= i < |lines| ==> lines[i] == (lo + i, if lo + i in m then m[lo + i] else 0.0)
  {
    lines := [];
    var cur := lo;
    while cur <= hi
      invariant lo <= cur <= hi + 1 && |lines| == cur - lo
      invariant forall i :: 0 <= i < |lines| ==> lines[i] == (lo + i, if lo + i in m then m[lo + i] else 0.0)
    {
      lines := lines + [(cur, if cur in m then m[cur] else 0.0)];
      cur := cur + 1;
    }
  }

  /** The hours of the closed records that started on a day in `[a, b)`. */
  function HoursBetween(recs: seq<Record>, a: int, b: int): real {
    if |recs| == 0 then 0.0
    else
      var r := recs[|recs| - 1];
      HoursBetween(recs[..|recs| - 1], a, b)
        + (if r.end.Some? && a <= StartDay(r.start) < b then RecordHours(r) else 0.0)
  }

  /** The values of the printed lines, added up. */
  function SumValues(lines: seq<(int, real)>): real {
    if |lines| == 0 then 0.0 else SumValues(lines[..|lines| - 1]) + lines[|lines| - 1].1
  }

  lemma {:induction false} HoursBetweenExtend(recs: seq<Record>, a: int, b: int)
    requires a <= b
    ensures HoursBetween(recs, a, b) + DayHours(recs, b) == HoursBetween(recs, a, b + 1)
  {
    if |recs| > 0 {
      HoursBetweenExtend(recs[..|recs| - 1], a, b);
    }
  }

  lemma {:induction false} HoursBetweenAll(recs: seq<Record>, a: int, b: int)
    requires forall i :: 0 <= i < |recs| && recs[i].end.Some? ==> a <= StartDay(recs[i].start) < b
    ensures HoursBetween(recs, a, b) == TotalHours(recs)
  {
    if |recs| > 0 {
      var init := recs[..|recs| - 1];
      assert forall i :: 0 <= i < |init| ==> init[i] == recs[i];
      HoursBetweenAll(init, a, b);
    }
  }

  /** Lines that give each day from `lo` its hours add up to the hours of
      those days. */
  lemma {:induction false} SumLines(recs: seq<Record>, lines: seq<(int, real)>, lo: int)
    requires forall i :: 0 <= i < |lines| ==> lines[i].0 == lo + i && lines[i].1 == DayHours(recs, lo + i)
    ensures SumValues(lines) == HoursBetween(recs, lo, lo + |lines|)
  {
    if |lines| == 0 {
      HoursBetweenEmpty(recs, lo);
    } else {
      var init := lines[..|lines| - 1];
      SumLines(recs, init, lo);
      HoursBetweenExtend(recs, lo, lo + |init|);
    }
  }

  lemma {:induction false} HoursBetweenEmpty(recs: seq<Record>, a: int)
    ensures HoursBetween(recs, a, a) == 0.0
  {
    if |recs| > 0 {
      HoursBetweenEmpty(recs[..|recs| - 1], a);
    }
  }

  datatype ReportError = EmptyReport

  /** What the command prints, as (day, hours) lines and the total, and its
      exit status. */
  datatype ReportOutput = ReportOutput(lines: seq<(int, real)>, total: real, status: int)

  /** Looking a day up in the buckets, with 0.0 for a missing day, gives
      the day's hours. */
  lemma LookupHours(recs: seq<Record>, m: map<int, real>)
    requires forall d :: d in m <==> HasDay(recs, d)
    requires forall d :: d in m ==> m[d] == DayHours(recs, d)
    ensures forall d :: (if d in m then m[d] else 0.0) == DayHours(recs, d)
  {
    forall d | d !in m
      ensures DayHours(recs, d) == 0.0
    {
      NoDayNoHours(recs, d);
    }
  }

  /** Lines that look each day up in the buckets give each day its hours,
      so they add up to the total. */
  lemma LinesTotal(recs: seq<Record>, m: map<int, real>, lines: seq<(int, real)>, lo: int, hi: int)
    requires forall d :: d in m <==> HasDay(recs, d)
    requires forall d :: d in m ==> m[d] == DayHours(recs, d)
    requires lo <= hi && |lines| == hi - lo + 1
    requires forall i :: 0 <= i < |lines| ==> lines[i] == (lo + i, if lo + i in m then m[lo + i] else 0.0)
    requires forall i :: 0 <= i < |recs| && recs[i].end.Some? ==> lo <= StartDay(recs[i].start) <= hi
    ensures forall i :: 0 <= i < |lines| ==> lines[i].0 == lo + i && lines[i].1 == DayHours(recs, lines[i].0)
    ensures SumValues(lines) == TotalHours(recs)
  {
    LookupHours(recs, m);
    SumLines(recs, lines, lo);
    HoursBetweenAll(recs, lo, hi + 1);
  }

  /** The first day is not after the last. */
  lemma DaysOrdered(recs: seq<Record>)
    requires MinDay(recs).Some?
    ensures MaxDay(recs).Some? && MinDay(recs).value <= MaxDay(recs).value
  {
    var j :| 0 <= j < |recs| && OnDay(recs[j], MaxDay(recs).value);
  }

  /** What `execute` prints for the records it collected. With no closed
      record `min()` raises. */
  method Tabulate(recs: seq<Record>) returns (r: Result<ReportOutput, ReportError>)
    ensures r.Failure? <==> forall i :: 0 <= i < |recs| ==> recs[i].end.None?
    ensures r.Success? ==> r.value.status == 0 && |r.value.lines| > 0
    ensures r.Success? ==> forall i :: 0 <= i < |r.value.lines| ==>
      r.value.lines[i].0 == r.value.lines[0].0 + i && r.value.lines[i].1 == DayHours(recs, r.value.lines[i].0)
    ensures r.Success? ==> forall i :: 0 <= i < |recs| && recs[i].end.Some? ==>
      r.value.lines[0].0 <= StartDay(recs[i].start) <= r.value.lines[|r.value.lines| - 1].0
    ensures r.Success? ==> HasDay(recs, r.value.lines[0].0) && HasDay(recs, r.value.lines[|r.value.lines| - 1].0)
    ensures r.Success? ==> r.value.total == TotalHours(recs) == SumValues(r.value.lines)
  {
    var buckets := Bucket(recs);
    var lo := MinDay(recs);
    var hi := MaxDay(recs);
    if lo.None? {
      return Failure(EmptyReport);
    }
    DaysOrdered(recs);
    var lines := Lines(buckets.0, lo.value, hi.value);
    LinesTotal(recs, buckets.0, lines, lo.value, hi.value);
    assert lines[0].0 == lo.value && lines[|lines| - 1].0 == hi.value;
    return Success(ReportOutput(lines, buckets.1, 0));
  }

  /** `report.execute`: every page, then the table of its records. */
  method Execute(all: seq<Log>) returns (r: Result<ReportOutput, ReportError>)
    ensures var recs := AllRecords(all);
      r.Failure? <==> forall i :: 0 <= i < |recs| ==> recs[i].end.None?
    ensures r.Success? ==> r.value.status == 0 && |r.value.lines| > 0
    // One line per day from the first to the last start day, 0.0 where none.
    ensures r.Success? ==> forall i :: 0 <= i < |r.value.lines| ==>
      r.value.lines[i].0 == r.value.lines[0].0 + i &&
      r.value.lines[i].1 == DayHours(AllRecords(all), r.value.lines[i].0)
    ensures var recs := AllRecords(all);
      r.Success? ==> forall i :: 0 <= i < |recs| && recs[i].end.Some? ==>
        r.value.lines[0].0 <= StartDay(recs[i].start) <= r.value.lines[|r.value.lines| - 1].0
    ensures r.Success? ==>
      HasDay(AllRecords(all), r.value.lines[0].0) &&
      HasDay(AllRecords(all), r.value.lines[|r.value.lines| - 1].0)
    ensures r.Success? ==> r.value.total == TotalHours(AllRecords(all)) == SumValues(r.value.lines)
  {
    var logs, _ := FetchAll(all);
    var recs := AllRecords(logs);
    assert recs == AllRecords(all);
    r := Tabulate(recs);
  }
}

=== FILE: report_view.dfy ===
/** The monthly report tab: `WorkLogReport` lays out one row per day of
    the month plus a total row, and each `WorkLogReportDay` sums the hours
    of the records in its window. */
module ReportView {
  import opened Wrappers
  import opened Dates
  import opened Logs

  const HourSeconds: real := 3600.0

  /** The number of day rows, enough for the longest month. */
  const DayRows: nat := 31

  /** Python's `ValueError` from `date(y, m, 1)` with `m` outside 1..12. */
  datatype DateError = ValueError

  /** `date(y, m, 1)`. */
  function FirstOfMonth(y: int, m: int): (r: Result<Date, DateError>)
    requires y >= 1
    ensures r.Failure? <==> m < 1 || m > 12
    ensures r.Success? ==> Valid(r.value) && r.value == Date(y, m, 1)
  {
    if 1 <= m <= 12 then Success(Date(y, m, 1)) else Failure(ValueError)
  }

  /** `_get_month_start`. */
  function MonthStart(d: Date): (r: Date)
    requires Valid(d)
    ensures Valid(r) && r.day == 1
  {
    Date(d.year, d.month, 1)
  }

  /** The month start is the date `day - 1` days back, and taking it twice
      changes nothing. */
  lemma MonthStartOf(d: Date)
    requires Valid(d)
    ensures AddDays(MonthStart(d), d.day - 1) == d
    ensures MonthStart(MonthStart(d)) == MonthStart(d)
  {
    AddDaysWithinMonth(MonthStart(d), d.day - 1);
  }

  /** `WorkLogReport.month_end`: the day before the first of the next
      month, which raises for December since month 13 does not exist. */
  function MonthEnd(ms: Date): (r: Result<Date, DateError>)
    requires Valid(ms)
    ensures r.Failure? <==> ms.month == 12
    ensures r.Success? ==> r.value == Date(ms.year, ms.month, DaysInMonth(ms.year, ms.month))
  {
    match FirstOfMonth(ms.year, ms.month + 1)
    case Failure(err) => Failure(err)
    case Success(first) => Success(PrevDay(first))
  }

  /** The successor of the month's last day is the first of the next month. */
  lemma MonthEndNext(ms: Date)
    requires Valid(ms) && MonthEnd(ms).Success?
    ensures NextDay(MonthEnd(ms).value) == Date(ms.year, ms.month + 1, 1)
  {
  }

  /** One day row: the day it shows, and whether it is displayed. */
  datatype Slot = Slot(day: Option<Date>, shown: bool)

  /** Row `i + 1`: `month_start + i`, hidden once it leaves the month. */
  function DaySlot(ms: Date, i: nat): (s: Slot)
    requires Valid(ms)
    ensures s.shown <==> s.day.Some?
    ensures s.shown ==> s.day.value == AddDays(ms, i) && s.day.value.month == ms.month
    ensures !s.shown ==> AddDays(ms, i).month != ms.month
  {
    var target := AddDays(ms, i);
    if target.month != ms.month then Slot(None, false) else Slot(Some(target), true)
  }

  /** `WorkLogReport.update_content`: the day rows and the total row's day.
      The heading needs `month_end` first, so a December month raises. */
  function UpdateContent(ms: Date): (r: Result<(seq<Slot>, Date), DateError>)
    requires Valid(ms)
    ensures r.Failure? <==> ms.month == 12
    ensures r.Success? ==> |r.value.0| == DayRows && r.value.1 == ms
    ensures r.Success? ==> forall i :: 0 <= i < DayRows ==> r.value.0[i] == DaySlot(ms, i)
  {
    match MonthEnd(ms)
    case Failure(err) => Failure(err)
    case Success(_) => Success((seq(DayRows, i requires 0 <= i < DayRows => DaySlot(ms, i)), ms))
  }

  /** From the first of a month, exactly the month's days are shown, row
      `i + 1` holding day `i + 1`. */
  lemma SlotsOfMonth(ms: Date, i: nat)
    requires Valid(ms) && ms.day == 1 && i < DayRows
    ensures DaySlot(ms, i).shown <==> i < DaysInMonth(ms.year, ms.month)
    ensures DaySlot(ms, i).shown ==> DaySlot(ms, i).day.value == Date(ms.year, ms.month, i + 1)
  {
    if i < DaysInMonth(ms.year, ms.month) {
      AddDaysWithinMonth(ms, i);
    } else {
      AddDaysPastMonth(ms, i);
    }
  }

  datatype MonthButton = Previous | Next

  /** `WorkLogReport.on_button_pressed`: the first of the neighbouring month
      of the same year, raising past January and December. */
  function Press(ms: Date, b: MonthButton): (r: Result<Date, DateError>)
    requires Valid(ms)
    ensures b == Previous ==> (r.Failure? <==> ms.month == 1)
    ensures b == Next ==> (r.Failure? <==> ms.month == 12)
    ensures r.Success? ==> Valid(r.value) && r.value.day == 1 && r.value.year == ms.year
    ensures r.Success? ==> r.value.month == if b == Next then ms.month + 1 else ms.month - 1
  {
    FirstOfMonth(ms.year, if b == Next then ms.month + 1 else ms.month - 1)
  }

  /** Next then previous, or previous then next, returns to the month start. */
  lemma PressRoundTrip(ms: Date)
    requires Valid(ms)
    ensures ms.month < 12 ==> Press(Press(ms, Next).value, Previous) == Success(MonthStart(ms))
    ensures ms.month > 1 ==> Press(Press(ms, Previous).value, Next) == Success(MonthStart(ms))
  {
  }

  /** `watch_month_start`: a change of month re-lays the rows; the call made
      while initialising, with equal values, does nothing. */
  function WatchMonthStart(before: Date, after: Date): (r: Result<Option<(seq<Slot>, Date)>, DateError>)
    requires Valid(after)
    ensures before == after ==> r == Success(None)
    ensures before != after ==> (r.Failure? <==> after.month == 12)
    ensures before != after && r.Success? ==> r.value.Some? && r.value.value.1 == after
    // A change re-lays all day rows for the new month.
    ensures before != after && r.Success? ==>
      |r.value.value.0| == DayRows &&
      forall i :: 0 <= i < DayRows ==> r.value.value.0[i] == DaySlot(after, i)
  {
    if before == after then Success(None)
    else
      match UpdateContent(after)
      case Failure(err) => Failure(err)
      case Success(c) => Success(Some(c))
  }

  // ---------------------------------------------------------------------
  // One report row
  // ---------------------------------------------------------------------

  /** `WorkLogReportDay`: the total row or a day row, the day it covers, and
      the hours loaded so far. */
  datatype DayRow = DayRow(total: bool, day: Option<Date>, current: Option<real>)

  /** The two progress bars' totals (target, maximum). */
  datatype Targets = Targets(target: Option<real>, limit: Option<real>)

  function ProgressTargets(row: DayRow): (t: Targets)
    ensures t.target.None? <==> row.current.None?
    ensures t.limit.None? <==> row.current.None?
    ensures t.target.Some? ==> t.target.value < t.limit.value
    ensures t.target.Some? && row.total ==> t.target.value == 20.0 * 8.0 && t.limit.value == 28.0 * 24.0
    ensures t.target.Some? && !row.total ==> t.target.value == 8.0 && t.limit.value == 24.0
  {
    if row.current.None? then Targets(None, None)
    else if row.total then Targets(Some(160.0), Some(672.0))
    else Targets(Some(8.0), Some(24.0))
  }

  /** `watch_total` and `watch_day`: a change drops the loaded hours and asks
      for a reload; the call made while initialising does nothing. */
  function WatchDay(row: DayRow, before: Option<Date>, after: Option<Date>): (r: (DayRow, bool))
    ensures before == after ==> r == (row.(day := after), false)
    ensures before != after ==> r.0 == DayRow(row.total, after, None) && r.1
  {
    if before == after then (row.(day := after), false)
    else (DayRow(row.total, after, None), true)
  }

  /** The query window of `_refresh_data`: nothing without a day; the
      day from `time.min` to `time.max`; for the total row the whole month,
      which raises in December. */
  function QueryWindow(row: DayRow): (r: Result<Option<(real, real)>, DateError>)
    requires row.day.Some? ==> Valid(row.day.value)
    ensures row.day.None? ==> r == Success(None)
    ensures row.day.Some? && !row.total ==>
      r == Success(Some((DaySince(ToOrdinal(row.day.value)), DayUntil(ToOrdinal(row.day.value)))))
    ensures row.day.Some? && row.total ==> (r.Failure? <==> row.day.value.month == 12)
    ensures row.day.Some? && row.total && r.Success? ==>
      var d := row.day.value;
      r.value == Some((DaySince(ToOrdinal(Date(d.year, d.month, 1))),
                       DayUntil(ToOrdinal(Date(d.year, d.month, DaysInMonth(d.year, d.month))))))
  {
    match row.day
    case None => Success(None)
    case Some(d) =>
      if !row.total then Success(Some((DaySince(ToOrdinal(d)), DayUntil(ToOrdinal(d)))))
      else
        var first := Date(d.year, d.month, 1);
        match MonthEnd(first)
        case Failure(err) => Failure(err)
        case Success(last) => Success(Some((DaySince(ToOrdinal(first)), DayUntil(ToOrdinal(last)))))
  }

  /** The total row's window spans the month's days back to back: it ends
      one microsecond short of `DaysInMonth` whole days after it starts. */
  lemma MonthWindowLength(row: DayRow)
    requires row.day.Some? && Valid(row.day.value) && row.total
    requires QueryWindow(row).Success?
    ensures var w := QueryWindow(row).value.value;
      var d := row.day.value;
      w.1 - w.0 == DaysInMonth(d.year, d.month) as real * DaySeconds - Microsecond
  {
  }

  /** The hours one record adds, `now` standing in for a running record. */
  function Hours(rec: Record, now: real): real {
    (EndOr(rec, now) - rec.start) / HourSeconds
  }

  /** The total hours of the records. */
  function SumHours(recs: seq<Record>, now: real): real {
    if |recs| == 0 then 0.0 else SumHours(recs[..|recs| - 1], now) + Hours(recs[|recs| - 1], now)
  }

  /** Every record ends no earlier than it starts. */
  predicate Forward(recs: seq<Record>, now: real) {
    forall i :: 0 <= i < |recs| ==> recs[i].start <= EndOr(recs[i], now)
  }

  /** `_fetch_total`: the running total after each record of each log, then
      the final total once more; `_refresh_data` shows them in turn. */
  method FetchTotal(logs: seq<Log>, now: real) returns (ts: seq<real>)
    ensures var recs := AllRecords(logs);
      |ts| == |recs| + 1 && ts[|recs|] == SumHours(recs, now)
    ensures var recs := AllRecords(logs);
      forall i :: 0 <= i < |recs| ==> ts[i] == SumHours(recs[..i + 1], now)
    ensures Forward(AllRecords(logs), now) ==>
      forall i, j :: 0 <= i <= j < |ts| ==> ts[i] <= ts[j]
  {
    var recs := AllRecords(logs);
    var total := 0.0;
    ts := [];
    var i := 0;
    while i < |recs|
      invariant 0 <= i <= |recs|
      invariant |ts| == i && total == SumHours(recs[..i], now)
      invariant forall k :: 0 <= k < i ==> ts[k] == SumHours(recs[..k + 1], now)
      invariant Forward(recs, now) ==> forall k, m :: 0 <= k <= m < i ==> ts[k] <= ts[m]
      invariant Forward(recs, now) ==> forall k :: 0 <= k < i ==> ts[k] <= total
    {
      assert recs[..i + 1][..i] == recs[..i];
      total := total + Hours(recs[i], now);
      ts := ts + [total];
      i := i + 1;
    }
    assert recs[..|recs|] == recs;
    ts := ts + [total];
  }
}

=== FILE: serve.dfy ===
/** The web launcher: it serves the terminal UI through a shell command
    line built from its own arguments, each wrapped in single quotes so the
    shell hands it back unchanged. */
module Serve {
  import opened Wrappers

  const Title: string := "Metasking TUI"
  const Program: string := "python -m metaskingcli tui "

  /** How many times `c` occurs in `s`. */
  function Count(s: string, c: char): nat {
    if |s| == 0 then 0 else (if s[0] == c then 1 else 0) + Count(s[1..], c)
  }

  /** `arg.replace("'", "'\"'\"'")`: each single quote closes the quoted
      text, is written inside double quotes, and reopens it. */
  function EscapeQuotes(a: string): (r: string)
    ensures |r| == |a| + 4 * Count(a, '\'')
  {
    if |a| == 0 then ""
    else (if a[0] == '\'' then "'\"'\"'" else [a[0]]) + EscapeQuotes(a[1..])
  }

  /** `escape_argument`. */
  function EscapeArgument(a: string): (r: string)
    ensures |r| == |a| + 2 + 4 * Count(a, '\'')
    ensures r[0] == '\'' && r[|r| - 1] == '\''
  {
    "'" + EscapeQuotes(a) + "'"
  }

  /** `" ".join(words)`. */
  function Join(ws: seq<string>): string {
    if |ws| == 0 then "" else if |ws| == 1 then ws[0] else ws[0] + " " + Join(ws[1..])
  }

  function EscapeAll(args: seq<string>): (r: seq<string>)
    ensures |r| == |args|
    ensures forall i :: 0 <= i < |args| ==> r[i] == EscapeArgument(args[i])
  {
    if |args| == 0 then [] else [EscapeArgument(args[0])] + EscapeAll(args[1..])
  }

  /** The command the server runs. */
  function CommandLine(args: seq<string>): (r: string)
    ensures |r| >= |Program| && r[..|Program|] == Program
  {
    Program + Join(EscapeAll(args))
  }

  /** The title shown by the server: a non-empty configured title is
      appended after ` - `. */
  function WindowTitle(configured: string): (r: string)
    ensures configured == "" <==> r == Title
    ensures configured != "" ==> |r| > |Title| && r[..|Title|] == Title && r[|Title|..] == " - " + configured
  {
    Title + (if configured != "" then " - " + configured else "")
  }

  // ---------------------------------------------------------------------
  // How a POSIX shell reads the command line back
  // ---------------------------------------------------------------------

  datatype Quoting = Bare | InSingle | InDouble

  /** Characters that end an unquoted word. */
  predicate Blank(c: char) {
    c == ' ' || c == '\t'
  }

  /** Unquoted characters that would start an operator, an expansion, a
      pattern or a comment; this reader does not go there. */
  predicate Special(c: char) {
    c == '|' || c == '&' || c == ';' || c == '<' || c == '>' || c == '(' || c == ')'
    || c == '$' || c == '`' || c == '*' || c == '?' || c == '[' || c == '#' || c == '~' || c == '\n'
  }

  /** Token recognition and quote removal as in sections 2.2.1 to 2.2.3 and
      2.3 of the POSIX.1-2017 Shell Command Language, for one simple command
      without expansions: `None` for an unterminated quote and for anything
      outside that subset. `cur` is the word being read and `inWord` whether
      one has started (a quoted empty string is a word). */
  function Scan(s: string, q: Quoting, cur: string, inWord: bool, words: seq<string>): Option<seq<string>>
    decreases |s|
  {
    if |s| == 0 then
      if q != Bare then None else Some(words + if inWord then [cur] else [])
    else
      var c := s[0];
      match q
      case InSingle =>
        if c == '\'' then Scan(s[1..], Bare, cur, true, words)
        else Scan(s[1..], InSingle, cur + [c], true, words)
      case InDouble =>
        if c == '"' then Scan(s[1..], Bare, cur, true, words)
        else if c == '$' || c == '`' then None
        else if c == '\\' && |s| >= 2 && s[1] in "$`\"\\" then Scan(s[2..], InDouble, cur + [s[1]], true, words)
        else if c == '\\' && |s| >= 2 && s[1] == '\n' then Scan(s[2..], InDouble, cur, true, words)
        else Scan(s[1..], InDouble, cur + [c], true, words)
      case Bare =>
        if Blank(c) then
          Scan(s[1..], Bare, "", false, words + if inWord then [cur] else [])
        else if c == '\'' then Scan(s[1..], InSingle, cur, true, words)
        else if c == '"' then Scan(s[1..], InDouble, cur, true, words)
        else if c == '\\' then
          if |s| < 2 then None
          else if s[1] == '\n' then Scan(s[2..], Bare, cur, inWord, words)
          else Scan(s[2..], Bare, cur + [s[1]], true, words)
        else if Special(c) then None
        else Scan(s[1..], Bare, cur + [c], true, words)
  }

  /** The words a shell makes of a command line. */
  function ParseWords(s: string): Option<seq<string>> {
    Scan(s, Bare, "", false, [])
  }

  /** Inside single quotes, an escaped quote reads back as one quote. */
  lemma ScanQuote(tail: string, cur: string, words: seq<string>)
    ensures Scan("'\"'\"'" + tail, InSingle, cur, true, words) == Scan(tail, InSingle, cur + "'", true, words)
  {
    var s := "'\"'\"'" + tail;
    assert s[1..] == "\"'\"'" + tail;
    assert s[2..] == "'\"'" + tail;
    assert s[3..] == "\"'" + tail;
    assert s[4..] == "'" + tail;
    assert s[5..] == tail;
    assert Scan(s, InSingle, cur, true, words) == Scan(s[1..], Bare, cur, true, words);
    assert Scan(s[1..], Bare, cur, true, words) == Scan(s[2..], InDouble, cur, true, words);
    assert Scan(s[2..], InDouble, cur, true, words) == Scan(s[3..], InDouble, cur + "'", true, words);
    assert Scan(s[3..], InDouble, cur + "'", true, words) == Scan(s[4..], Bare, cur + "'", true, words);
  }

  /** Inside single quotes, any other character reads as itself. */
  lemma ScanLiteral(c: char, tail: string, cur: string, words: seq<string>)
    requires c != '\''
    ensures Scan([c] + tail, InSingle, cur, true, words) == Scan(tail, InSingle, cur + [c], true, words)
  {
    assert ([c] + tail)[1..] == tail;
  }

  /** The closing quote returns to unquoted text. */
  lemma ScanClose(rest: string, cur: string, words: seq<string>)
    ensures Scan("'" + rest, InSingle, cur, true, words) == Scan(rest, Bare, cur, true, words)
  {
    assert ("'" + rest)[1..] == rest;
  }

  /** The escaped form of the first character reads back as it. */
  lemma ScanEscapedStep(a: string, rest: string, cur: string, words: seq<string>)
    requires |a| > 0
    ensures Scan(EscapeQuotes(a) + "'" + rest, InSingle, cur, true, words)
      == Scan(EscapeQuotes(a[1..]) + "'" + rest, InSingle, cur + [a[0]], true, words)
  {
    var tail := EscapeQuotes(a[1..]) + "'" + rest;
    if a[0] == '\'' {
      assert EscapeQuotes(a) + "'" + rest == "'\"'\"'" + tail;
      ScanQuote(tail, cur, words);
    } else {
      assert EscapeQuotes(a) + "'" + rest == [a[0]] + tail;
      ScanLiteral(a[0], tail, cur, words);
    }
  }

  /** Inside single quotes, the escaped text reads back as the argument and
      the closing quote returns to unquoted text. */
  lemma {:induction false} ScanEscaped(a: string, rest: string, cur: string, words: seq<string>)
    ensures Scan(EscapeQuotes(a) + "'" + rest, InSingle, cur, true, words) == Scan(rest, Bare, cur + a, true, words)
    decreases |a|
  {
    if |a| == 0 {
      assert EscapeQuotes(a) + "'" + rest == "'" + rest;
      ScanClose(rest, cur, words);
      assert cur + a == cur;
    } else {
      ScanEscapedStep(a, rest, cur, words);
      ScanEscaped(a[1..], rest, cur + [a[0]], words);
      assert cur + [a[0]] + a[1..] == cur + a;
    }
  }

  /** An escaped argument followed by a blank reads back as one word. */
  lemma ScanArgument(a: string, rest: string, words: seq<string>)
    ensures Scan(EscapeArgument(a) + rest, Bare, "", false, words) == Scan(rest, Bare, a, true, words)
  {
    var s := EscapeArgument(a) + rest;
    assert s == "'" + (EscapeQuotes(a) + "'" + rest);
    assert s[1..] == EscapeQuotes(a) + "'" + rest;
    ScanEscaped(a, rest, "", words);
    assert "" + a == a;
  }

  /** An unquoted blank ends the word being read. */
  lemma ScanBlank(rest: string, cur: string, words: seq<string>)
    ensures Scan(" " + rest, Bare, cur, true, words) == Scan(rest, Bare, "", false, words + [cur])
  {
    assert (" " + rest)[1..] == rest;
  }

  /** The end of the text ends the word being read. */
  lemma ScanEnd(cur: string, words: seq<string>)
    ensures Scan("", Bare, cur, true, words) == Some(words + [cur])
  {
  }

  lemma JoinCons(ws: seq<string>)
    requires |ws| >= 2
    ensures Join(ws) == ws[0] + (" " + Join(ws[1..]))
  {
  }

  /** The first of several escaped arguments reads back as one word. */
  lemma ScanJoinedStep(args: seq<string>, words: seq<string>)
    requires |args| >= 2
    ensures Scan(Join(EscapeAll(args)), Bare, "", false, words)
      == Scan(Join(EscapeAll(args[1..])), Bare, "", false, words + [args[0]])
  {
    var es := EscapeAll(args);
    var more := Join(EscapeAll(args[1..]));
    assert es[1..] == EscapeAll(args[1..]);
    JoinCons(es);
    ScanArgument(args[0], " " + more, words);
    ScanBlank(more, args[0], words);
  }

  /** A single escaped argument reads back as one word. */
  lemma ScanJoinedLast(a: string, words: seq<string>)
    ensures Scan(Join(EscapeAll([a])), Bare, "", false, words) == Some(words + [a])
  {
    assert Join(EscapeAll([a])) == EscapeArgument(a) + "";
    ScanArgument(a, "", words);
    ScanEnd(a, words);
  }

  /** One escaped argument reads back as exactly that argument; the empty
      argument is written `''`. */
  lemma EscapeArgumentRoundTrip(a: string)
    ensures ParseWords(EscapeArgument(a)) == Some([a])
    ensures a == "" ==> EscapeArgument(a) == "''"
  {
    assert EscapeArgument(a) + "" == EscapeArgument(a);
    ScanArgument(a, "", []);
    ScanEnd(a, []);
    assert [] + [a] == [a];
  }

  /** The joined escaped arguments read back as the arguments. */
  lemma {:induction false} ScanJoined(args: seq<string>, words: seq<string>)
    ensures Scan(Join(EscapeAll(args)), Bare, "", false, words) == Some(words + args)
    decreases |args|
  {
    if |args| == 0 {
      assert Join(EscapeAll(args)) == "";
      assert words + args == words;
    } else if |args| == 1 {
      ScanJoinedLast(args[0], words);
      assert [args[0]] == args;
    } else {
      ScanJoinedStep(args, words);
      ScanJoined(args[1..], words + [args[0]]);
      assert words + [args[0]] + args[1..] == words + args;
    }
  }

  /** No blank, quote, backslash or special character: the text reads as
      it is written. */
  predicate Plain(w: string) {
    forall i :: 0 <= i < |w| ==> !Blank(w[i]) && !Special(w[i]) && w[i] != '\'' && w[i] != '"' && w[i] != '\\'
  }

  lemma ProgramPlain()
    ensures Plain("python") && Plain("-m") && Plain("metaskingcli") && Plain("tui")
  {
  }

  lemma ProgramText(rest: string)
    ensures Program + rest == "python" + (" " + ("-m" + (" " + ("metaskingcli" + (" " + ("tui" + (" " + rest)))))))
  {
  }

  /** A plain word is read character by character. */
  lemma {:induction false} ScanPlain(w: string, rest: string, cur: string, inWord: bool, words: seq<string>)
    requires Plain(w)
    ensures Scan(w + rest, Bare, cur, inWord, words) == Scan(rest, Bare, cur + w, inWord || |w| > 0, words)
    decreases |w|
  {
    if |w| == 0 {
      assert w + rest == rest;
      assert cur + w == cur;
    } else {
      assert (w + rest)[0] == w[0] && (w + rest)[1..] == w[1..] + rest;
      ScanPlain(w[1..], rest, cur + [w[0]], true, words);
      assert cur + [w[0]] + w[1..] == cur + w;
    }
  }

  /** A plain word followed by a blank reads back as that word. */
  lemma ScanWord(w: string, rest: string, words: seq<string>)
    requires |w| > 0 && Plain(w)
    ensures Scan(w + (" " + rest), Bare, "", false, words) == Scan(rest, Bare, "", false, words + [w])
  {
    ScanPlain(w, " " + rest, "", false, words);
    assert "" + w == w;
    ScanBlank(rest, w, words);
  }

  /** The shell runs the program with exactly the launcher's arguments. */
  lemma CommandLineRoundTrip(args: seq<string>)
    ensures ParseWords(CommandLine(args)) == Some(["python", "-m", "metaskingcli", "tui"] + args)
  {
    var rest := Join(EscapeAll(args));
    var r2 := "tui" + (" " + rest);
    var r1 := "metaskingcli" + (" " + r2);
    var r0 := "-m" + (" " + r1);
    ProgramText(rest);
    ProgramPlain();
    ScanWord("python", r0, []);
    assert [] + ["python"] == ["python"];
    ScanWord("-m", r1, ["python"]);
    assert ["python"] + ["-m"] == ["python", "-m"];
    ScanWord("metaskingcli", r2, ["python", "-m"]);
    assert ["python", "-m"] + ["metaskingcli"] == ["python", "-m", "metaskingcli"];
    ScanWord("tui", rest, ["python", "-m", "metaskingcli"]);
    assert ["python", "-m", "metaskingcli"] + ["tui"] == ["python", "-m", "metaskingcli", "tui"];
    ScanJoined(args, ["python", "-m", "metaskingcli", "tui"]);
  }
}

=== FILE: work_log.dfy ===
/** The summary a `WorkLog` card shows for one log: the first and last
    date/time, whether the log is running, the activity ranges fed to its
    `RangeBar`, and the row of action buttons. `strftime` is a parameter
    (`fmtDate` for `%Y-%m-%d`, `fmtTime` for `%H:%M:%S`). */
module WorkLog {
  import opened Wrappers
  import opened Logs

  const NoRecords: string := "No records"
  const NoTime: string := "--:--:--"

  /** Python's `ZeroDivisionError` from `/ duration`. */
  datatype WorkLogError = ZeroDivisionError

  datatype Summary = Summary(
    startDate: string, endDate: string,
    startTime: string, endTime: string,
    ranges: seq<(real, real)>,
    active: bool)

  /** The span the bar is scaled to: the last record's end (or `now` while
      it runs) minus the first record's start. */
  function Duration(records: seq<Record>, now: real): real
    requires |records| > 0
  {
    EndOr(records[|records| - 1], now) - records[0].start
  }

  /** `get_activity_range`: a closed record becomes its two ends as
      fractions of the span; a running record keeps the raw `duration` as
      its second component. */
  function ActivityRange(rec: Record, s0: real, duration: real): (r: (real, real))
    requires duration != 0.0
    ensures s0 + r.0 * duration == rec.start
    ensures rec.end.Some? ==> s0 + r.1 * duration == rec.end.value
    ensures rec.end.None? ==> r.1 == duration
  {
    ((rec.start - s0) / duration,
     match rec.end
     case None => duration
     case Some(e) => (e - s0) / duration)
  }

  /** `WorkLog.__init__` minus the widget plumbing. */
  function Summarize(records: seq<Record>, now: real, fmtDate: real -> string, fmtTime: real -> string)
    : (r: Result<Summary, WorkLogError>)
    ensures |records| == 0 ==> r == Success(Summary(NoRecords, NoRecords, NoTime, NoTime, [], false))
    ensures |records| > 0 ==> (r.Failure? <==> Duration(records, now) == 0.0)
    ensures r.Success? ==> |r.value.ranges| == |records|
    ensures r.Success? ==> (r.value.active <==> |records| > 0 && records[|records| - 1].end.None?)
    ensures r.Success? && |records| > 0 ==>
      r.value.startDate == fmtDate(records[0].start) && r.value.startTime == fmtTime(records[0].start)
    ensures r.Success? && r.value.active ==>
      r.value.endDate == r.value.startDate && r.value.endTime == NoTime
    ensures r.Success? && |records| > 0 && !r.value.active ==>
      r.value.endDate == fmtDate(records[|records| - 1].end.value)
      && r.value.endTime == fmtTime(records[|records| - 1].end.value)
  {
    if |records| == 0 then Success(Summary(NoRecords, NoRecords, NoTime, NoTime, [], false))
    else
      var s0 := records[0].start;
      var last := records[|records| - 1];
      var duration := Duration(records, now);
      if duration == 0.0 then Failure(ZeroDivisionError)
      else
        var ranges := seq(|records|, i requires 0 <= i < |records| => ActivityRange(records[i], s0, duration));
        var startDate := fmtDate(s0);
        match last.end
        case None => Success(Summary(startDate, startDate, fmtTime(s0), NoTime, ranges, true))
        case Some(e) => Success(Summary(startDate, fmtDate(e), fmtTime(s0), fmtTime(e), ranges, false))
  }

  /** Each range is its own record's, in record order: the start maps back
      to the record's start, a closed end to the record's end, and a running
      record carries the span itself. */
  lemma RangesInverse(records: seq<Record>, now: real, fmtDate: real -> string, fmtTime: real -> string, i: int)
    requires Summarize(records, now, fmtDate, fmtTime).Success? && 0 <= i < |records|
    ensures var d := Duration(records, now);
      var rg := Summarize(records, now, fmtDate, fmtTime).value.ranges[i];
      records[0].start + rg.0 * d == records[i].start
      && (records[i].end.None? ==> rg.1 == d)
      && (records[i].end.Some? ==> records[0].start + rg.1 * d == records[i].end.value)
  {
    var d := Duration(records, now);
    var s0 := records[0].start;
    var rg := Summarize(records, now, fmtDate, fmtTime).value.ranges[i];
    assert rg == ActivityRange(records[i], s0, d);
    assert rg.0 * d == records[i].start - s0;
    if records[i].end.Some? {
      assert rg.1 * d == records[i].end.value - s0;
    }
  }

  /** The first start maps to 0 and a closed last end maps to 1. */
  lemma RangeEndpoints(records: seq<Record>, now: real, fmtDate: real -> string, fmtTime: real -> string)
    requires Summarize(records, now, fmtDate, fmtTime).Success? && |records| > 0
    ensures Summarize(records, now, fmtDate, fmtTime).value.ranges[0].0 == 0.0
    ensures records[|records| - 1].end.Some? ==>
      Summarize(records, now, fmtDate, fmtTime).value.ranges[|records| - 1].1 == 1.0
  {
    var rs := Summarize(records, now, fmtDate, fmtTime).value.ranges;
    var d := Duration(records, now);
    assert rs[0] == ActivityRange(records[0], records[0].start, d);
    assert rs[|records| - 1] == ActivityRange(records[|records| - 1], records[0].start, d);
  }

  /** Records in time order: each ends after it starts and before the next
      one starts, running records using `now`. */
  predicate Chronological(records: seq<Record>, now: real) {
    (forall i :: 0 <= i < |records| ==> records[i].start <= EndOr(records[i], now))
    && (forall i, j :: 0 <= i < j < |records| ==> EndOr(records[i], now) <= records[j].start)
  }

  lemma FractionBounds(x: real, d: real)
    requires 0.0 <= x <= d && d > 0.0
    ensures 0.0 <= x / d <= 1.0
  {
  }

  lemma FractionOrder(x: real, y: real, d: real)
    requires x <= y && d > 0.0
    ensures x / d <= y / d
  {
  }

  /** For a log whose records are in time order, every closed record's
      range lies inside `[0, 1]` with its start before its end. */
  lemma {:induction false} ClosedRangesUnit(
    records: seq<Record>, now: real, fmtDate: real -> string, fmtTime: real -> string, i: int)
    requires Chronological(records, now)
    requires Summarize(records, now, fmtDate, fmtTime).Success? && 0 <= i < |records|
    requires records[i].end.Some?
    ensures var rg := Summarize(records, now, fmtDate, fmtTime).value.ranges[i];
      0.0 <= rg.0 <= rg.1 <= 1.0
  {
    var d := Duration(records, now);
    var s0 := records[0].start;
    var n := |records|;
    var e := records[i].end.value;
    var rg := Summarize(records, now, fmtDate, fmtTime).value.ranges[i];
    assert rg == ActivityRange(records[i], s0, d);
    assert s0 <= records[i].start by {
      if i > 0 {
        assert EndOr(records[0], now) <= records[i].start;
      }
    }
    assert e <= EndOr(records[n - 1], now) by {
      assert EndOr(records[i], now) == e;
      if i < n - 1 {
        assert e <= records[n - 1].start;
      }
    }
    assert d > 0.0;
    FractionBounds(records[i].start - s0, d);
    FractionBounds(e - s0, d);
    FractionOrder(records[i].start - s0, e - s0, d);
  }

  /** A log is running when its last record has no end. */
  predicate IsActive(log: Log) {
    |log.records| > 0 && log.records[|log.records| - 1].end.None?
  }

  /** The `active` flag a card reports is `IsActive` of its log. */
  lemma SummaryActive(log: Log, now: real, fmtDate: real -> string, fmtTime: real -> string)
    requires Summarize(log.records, now, fmtDate, fmtTime).Success?
    ensures Summarize(log.records, now, fmtDate, fmtTime).value.active == IsActive(log)
  {
  }

  /** The date line: the start date alone when the log starts and ends on
      the same day, else `start - end`. */
  function DateText(s: Summary): (t: string)
    ensures s.startDate <= t
    ensures s.startDate != s.endDate ==> t[|s.startDate|..] == " - " + s.endDate
    ensures s.startDate == s.endDate <==> t == s.startDate
  {
    if s.startDate != s.endDate then s.startDate + " - " + s.endDate else s.startDate
  }

  /** The time line: both times around ` - `. */
  function TimeText(s: Summary): (t: string)
    ensures |t| == |s.startTime| + 3 + |s.endTime|
    ensures t[..|s.startTime|] == s.startTime && t[|s.startTime| + 3..] == s.endTime
    ensures t[|s.startTime|..|s.startTime| + 3] == " - "
  {
    s.startTime + " - " + s.endTime
  }

  datatype Button = Stop | Pause | Resume | Delete

  /** The action buttons `compose` yields, in order. */
  function Buttons(readOnly: bool, stopped: bool, active: bool): (bs: seq<Button>)
    ensures readOnly ==> bs == []
    ensures !readOnly ==> |bs| == (if stopped then 2 else 3) && bs[|bs| - 1] == Delete
    ensures !readOnly ==> (Stop in bs <==> !stopped) && (Pause in bs <==> active) && (Resume in bs <==> !active)
    ensures forall i, j :: 0 <= i < j < |bs| ==> bs[i] != bs[j]
    ensures Stop in bs ==> bs[0] == Stop
  {
    if readOnly then []
    else
      (if stopped then [] else [Stop])
      + [if active then Pause else Resume]
      + [Delete]
  }
}

=== FILE: wrappers.dfy ===
/** Failure-carrying values shared by the whole model: `Option` for Python's
    `None`-able values and `Result` for operations that raise. */
module Wrappers {

  datatype Option<+T> = None | Some(value: T) {

    /** The value in `Some`, or `default` (Python's `x or default` on a
        `str | None` whose string is non-empty). */
    function GetOr(default: T): T {
      match this
      case Some(v) => v
      case None => default
    }
  }

  /** `Failure` stands for a Python exception escaping the operation. */
  datatype Result<+R, +E> = Success(value: R) | Failure(error: E)
}
